=== FILE: README.md ===
# Xen configuration planner of the `colcon krs hypervisor` subverb

The hypervisor subverb of colcon-krs builds a Xen SD-card image for a board. Its one
piece of real logic is the planner inside `HypervisorSubverb.main`. The planner takes:

- the dom0 kernel variant;
- the `--domU` and `--dom0less` variant lists;
- the `--ramdisk` and `--rootfs` override lists.

From these it writes the `xen.cfg` that ImageBuilder reads. The file is the fixed
`TEMPLATE_CONFIG`, then `DOM0_KERNEL` and `DOM0_ROOTFS`, then three `DOMU_*[i]` lines
per domU, then two per dom0less VM, then `NUM_DOMUS`.

After creating the staging directory and rotating any existing `sd_card.img` to
`sd_card.img.old`, and before building `xen.cfg`, `argument_checks` runs four count
checks on the lists.
While and after building the file, the run:

- asserts that the default rootfs exists when no `--rootfs` is given, and that every
  ramdisk and rootfs override exists;
- copies dom0's kernel and the default rootfs as it writes the dom0 lines, each domU
  and dom0less kernel inside the loops that write their lines, and then the boot
  artifacts, both defaults and every override into a staging directory;
- patches partition 2 and one more partition per domU once the image is built.

This project models those steps as pure functions over immutable data. The modules are:

- `XenConfig`: the line vocabulary, the template and the exact text of every line.
- `Arguments`: the parsed command line and `argument_checks`.
- `Planner`: the dispatch on dom0, the line-by-line assembly, and what each VM receives.
- `ConfigParse`: a parser for the rendered text, the inverse of rendering.
- `Staging`: the copies, the existence assertions, the partitions to patch, and a whole run.
- `Scenarios`: concrete runs written out line by line.

The model follows the code as written, quirks included:

- **One counter for two jobs.** `num_domus` is both the `DOMU_*` index and the cursor
  into the rootfs list. It starts at 1 when `--rootfs` is given and at 0 otherwise.
- **`NUM_DOMUS` depends on `--rootfs`.** It is `b + |domU| + |dom0less|`, where `b` is
  that starting value. Without `--rootfs` it does not count dom0: dom0 plus one domU
  gives `NUM_DOMUS=1` and the domU has index 0; with `--rootfs` the first VM after
  dom0 has index 1. `Scenarios.Dom0AndOneDomU`, `Scenarios.Dom0lessWithOneRamdisk`
  and `Scenarios.RootfsStartsIndicesAtOne` spell out both numberings.
- **The ramdisk check.** `and` binds tighter than `or`, so the check reduces to "fewer
  dom0less VMs than ramdisks". Ramdisks given with no dom0less VM at all pass.
- **The `len(None)` crash.** An argparse `append` option that was never given is
  `None`. `--rootfs` without both `--domU` and `--dom0less` makes the rootfs check call
  `len(None)`. The resulting TypeError is the explicit failure `LenOfNone`. An absent
  list is modelled as the empty sequence: argparse never produces an empty list.
- **No dom0, no configuration.** Without dom0 nothing is checked, generated or staged,
  even when domU or dom0less VMs are requested. The image rotation has already run by
  then.

## Model

| member | source | states |
|---|---|---|
| Arguments.Len | colcon_krs/subverb/hypervisor.py:214-218 | `len` of an option list fails exactly when the option was never given, and is otherwise its length |
| Arguments.Slots | colcon_krs/subverb/hypervisor.py:214-218 | the VM slot count `len(domU) + len(dom0less) + 1` exists exactly when both lists were given |
| Arguments.RamdiskOverrun | colcon_krs/subverb/hypervisor.py:197-212 | the ramdisk condition, with its `and`/`or` precedence, holds iff ramdisks and dom0less VMs are both given and there are fewer dom0less VMs than ramdisks; the domU disjunct adds nothing |
| Arguments.ArgumentChecks | colcon_krs/subverb/hypervisor.py:189-247 | each outcome, exactly: too many ramdisks under the condition above; otherwise `len(None)` iff rootfs overrides were given and domU or dom0less is missing; otherwise too many rootfs iff there are more rootfs than VMs counting dom0; otherwise too many overrides iff ramdisks were given too and ramdisks plus rootfs outnumber the VMs; every other input is accepted, and the advisory is printed iff both overrides are given and the VMs outnumber them, which does not stop the run |
| Planner.RootfsAtChoice | colcon_krs/subverb/hypervisor.py:443-452 | a domU's rootfs is one of the overrides or the default, and always the default when none was given |
| Planner.RamdiskAtChoice | colcon_krs/subverb/hypervisor.py:497-505 | a dom0less VM's ramdisk is one of the overrides or the default, and always the default when none was given |
| Planner.DomULines | colcon_krs/subverb/hypervisor.py:443-492 | the domU loop emits exactly three lines per domU |
| Planner.Dom0lessLines | colcon_krs/subverb/hypervisor.py:497-545 | the dom0less loop emits exactly two lines per dom0less VM |
| Planner.DomUKernelAt | colcon_krs/subverb/hypervisor.py:443-492 | the k-th domU's first line is DOMU_KERNEL of its variant at index `counter + k` |
| Planner.DomURootfsAt | colcon_krs/subverb/hypervisor.py:443-492 | the k-th domU's second line is DOMU_ROOTFS at index `counter + k`, naming the rootfs at that same cursor position or the default |
| Planner.DomUNoBootAt | colcon_krs/subverb/hypervisor.py:489-492 | the k-th domU's third line is DOMU_NOBOOT at index `counter + k` |
| Planner.Dom0lessKernelAt | colcon_krs/subverb/hypervisor.py:497-536 | the j-th dom0less VM's first line is DOMU_KERNEL of its variant at index `cursor + j + num_domus` |
| Planner.Dom0lessRamdiskAt | colcon_krs/subverb/hypervisor.py:497-545 | the j-th dom0less VM's second line is DOMU_RAMDISK at the same index, naming the ramdisk at dom0less cursor position `cursor + j` or the default |
| Planner.DomULinesAt | colcon_krs/subverb/hypervisor.py:443-492 | the k-th domU emits DOMU_KERNEL, DOMU_ROOTFS and DOMU_NOBOOT=y, in that order, at index `counter + k`, and reads the rootfs at that same position |
| Planner.Dom0lessLinesAt | colcon_krs/subverb/hypervisor.py:497-545 | the j-th dom0less VM emits DOMU_KERNEL and DOMU_RAMDISK at index `cursor + j + counter`, and reads the ramdisk at `cursor + j` |
| Planner.AssembleConfig | colcon_krs/subverb/hypervisor.py:381-554 | the file has 9 lines, plus 3 per domU, plus 2 per dom0less VM, plus one |
| Planner.ConfigSections | colcon_krs/subverb/hypervisor.py:387-554 | the file starts with the seven template lines (their text is XenConfig.TemplateName and XenConfig.TemplateValue), then DOM0_KERNEL of the dom0 variant, then DOM0_ROOTFS with `rootfs[0]` or the default; then come the domU section from index `b`, the dom0less section from `b + len(domU)`, and last `NUM_DOMUS = b + len(domU) + len(dom0less)` |
| Planner.DomUSlot | colcon_krs/subverb/hypervisor.py:429-492 | the k-th domU's lines sit at positions 9+3k .. 9+3k+2 with index `b + k`, its variant, and the rootfs at position `b + k` or the default |
| Planner.Dom0lessSlot | colcon_krs/subverb/hypervisor.py:497-548 | the j-th dom0less VM's lines follow the domUs with index `b + len(domU) + j`, its variant, and `ramdisk[j]` or the default |
| Planner.HeadAt | colcon_krs/subverb/hypervisor.py:387-438 | the first nine lines are the template followed by dom0's kernel and rootfs lines |
| Planner.DomUSectionAt | colcon_krs/subverb/hypervisor.py:443-492 | the domU loop's lines follow the nine head lines unchanged |
| Planner.Dom0lessSectionAt | colcon_krs/subverb/hypervisor.py:497-545 | the dom0less loop's lines follow the domU lines unchanged |
| Planner.LastAt | colcon_krs/subverb/hypervisor.py:547-554 | the last line is NUM_DOMUS with `b + len(domU) + len(dom0less)` |
| Planner.Dom0lessKernelSlot | colcon_krs/subverb/hypervisor.py:497-536 | the j-th dom0less VM's kernel line sits right after the domU lines' block, at index `b + len(domU) + j` |
| Planner.Dom0lessRamdiskSlot | colcon_krs/subverb/hypervisor.py:497-545 | the j-th dom0less VM's ramdisk line follows its kernel line and names `ramdisk[j]` or the default |
| Planner.UnindexedOutsideSlots | colcon_krs/subverb/hypervisor.py:28-36 | the template, dom0 and NUM_DOMUS lines carry no DOMU index |
| Planner.DomUSectionLine | colcon_krs/subverb/hypervisor.py:443-492 | every line of the domU section carries the index of its domU, opens its block iff it is the kernel line, and is never a ramdisk line |
| Planner.Dom0lessSectionLine | colcon_krs/subverb/hypervisor.py:497-545 | every line of the dom0less section carries the index of its VM, is a kernel or ramdisk line, and opens its block iff it is the kernel line |
| Planner.IndexedLine | colcon_krs/subverb/hypervisor.py:443-554 | every DOMU_* index lies in `b .. NUM_DOMUS - 1`; the line sits inside that index's block, which opens with its only kernel line; ROOTFS and NOBOOT lines belong to domUs and RAMDISK lines to dom0less VMs |
| Planner.SlotOpensWithKernel | colcon_krs/subverb/hypervisor.py:443-548 | every index in `b .. NUM_DOMUS - 1` has a DOMU_KERNEL line at the start of its block |
| Planner.IndicesWithoutGapsOrReuse | colcon_krs/subverb/hypervisor.py:433-554 | indices stay within `b .. NUM_DOMUS - 1`, no two kernel lines share an index, and every index in that range is used |
| Planner.OverridesStayInTheirSlots | colcon_krs/subverb/hypervisor.py:420-545 | every rootfs line names a rootfs override or the default, and every ramdisk line a ramdisk override or the default; with no override, every such line names the default |
| Planner.KernelLinesBootRequestedVariants | colcon_krs/subverb/hypervisor.py:386-536 | DOM0_KERNEL names dom0's variant, and every DOMU_KERNEL line the variant of a requested domU or dom0less VM |
| Planner.HeadIsLineAt | colcon_krs/subverb/hypervisor.py:387-438 | the template, dom0 and NUM_DOMUS lines are the ones the closed-form description predicts |
| Planner.DomUIsLineAt | colcon_krs/subverb/hypervisor.py:443-492 | the domU loop's lines are the ones the closed-form description predicts |
| Planner.Dom0lessIsLineAt | colcon_krs/subverb/hypervisor.py:497-545 | the dom0less loop's lines are the ones the closed-form description predicts |
| Planner.ConfigIsLineAt | colcon_krs/subverb/hypervisor.py:381-554 | the line-appending loops produce, at every position, the line a closed-form description computed from the position alone |
| Planner.RamdisksOnlyChangeRamdiskLines | colcon_krs/subverb/hypervisor.py:497-505 | changing the ramdisk overrides changes only the paths on DOMU_RAMDISK lines: no index, kernel or rootfs moves |
| Planner.LineAtShift | colcon_krs/subverb/hypervisor.py:429-434 | in the closed form, giving rootfs overrides where none were given raises every index and NUM_DOMUS by one and keeps every kernel's variant |
| Planner.RootfsShiftsIndices | colcon_krs/subverb/hypervisor.py:429-434 | giving `--rootfs` where none was given raises every DOMU_* index by one, and NUM_DOMUS from `len(domU) + len(dom0less)` by one |
| Planner.Plan | colcon_krs/subverb/hypervisor.py:331-384 | nothing is requested iff there is no dom0, domU or dom0less; a run without dom0 but with VMs produces nothing and runs no check; with dom0 the checks run first, a failed check stops the run with the same failure, and otherwise the configuration is produced with the advisory flag of the checks; a config produced with rootfs overrides has both VM lists |
| XenConfig.KernelFile | colcon_krs/subverb/hypervisor.py:394-532 | the vanilla kernel is `Image` and the PREEMPT_RT kernel `Image_PREEMPT_RT` (as at 394, 410, 464, 481, 516 and 532); the file is plain `Image` iff the variant is vanilla, so the two variants never share a file |
| XenConfig.TemplateName | colcon_krs/subverb/hypervisor.py:28-36 | the seven `TEMPLATE_CONFIG` keys, `MEMORY_START` to `UBOOT_SCRIPT`; each is a plain name with no `=`, bracket or newline, and ConfigParse.TemplateKeyRoundTrip reads each back as its setting |
| XenConfig.TemplateValue | colcon_krs/subverb/hypervisor.py:28-36 | the seven `TEMPLATE_CONFIG` values, `0x0` to `boot.scr`; each is non-empty, unquoted and single-line |
| XenConfig.NatToString | colcon_krs/subverb/hypervisor.py:463-465 | `str` of an index or count is a non-empty string of decimal digits with no leading zero: it starts with `0` iff the number is 0 |
| XenConfig.ArrayKey | colcon_krs/subverb/hypervisor.py:463-491 | an array key `NAME[i]` holds no `=` or newline when its name holds none |
| XenConfig.Key | colcon_krs/subverb/hypervisor.py:28-36 | the key of every line (template keys, `DOM0_*`, `DOMU_*[i]` at 394-540, `NUM_DOMUS` at 554) is non-empty and holds no `=` or newline, so a line's first `=` ends its key; ConfigParse.LineRoundTrip reads the whole line back |
| XenConfig.Value | colcon_krs/subverb/hypervisor.py:463-545 | the DOMU kernel, rootfs and ramdisk values are wrapped in double quotes, and a value holds no newline unless its file name does; ConfigParse.UnquoteQuote and ConfigParse.LineRoundTrip read it back |
| XenConfig.RenderLine | colcon_krs/subverb/hypervisor.py:394-554 | a line's text holds its `=`, and no newline unless its file name does; ConfigParse.LineRoundTrip is its inverse |
| XenConfig.RenderConfig | colcon_krs/subverb/hypervisor.py:387-554 | the file is empty iff there are no lines and otherwise ends with a newline; ConfigParse.ConfigRoundTrip is its inverse |
| XenConfig.RenderConfigAppend | colcon_krs/subverb/hypervisor.py:387-554 | the file text is the texts of its lines, each ended by a newline, in the order they are appended |
| ConfigParse.ParseNatRoundTrip | colcon_krs/subverb/hypervisor.py:463-465 | the decimal text of an index or count reads back as the same number |
| ConfigParse.ArrayKeyRoundTrip | colcon_krs/subverb/hypervisor.py:463-491 | a `NAME[i]` key reads back as its array name and index |
| ConfigParse.UnquoteQuote | colcon_krs/subverb/hypervisor.py:488-490 | a double-quoted DOMU value reads back as the value |
| ConfigParse.LineRoundTrip | colcon_krs/subverb/hypervisor.py:387-554 | every line the planner can emit reads back, from its `KEY=VALUE` text, as the same line |
| ConfigParse.ConfigRoundTrip | colcon_krs/subverb/hypervisor.py:381-554 | the rendered file reads back as the same line sequence, so indices and values can be recovered from the text, whenever no path contains a newline |
| Staging.StagingCopies | colcon_krs/subverb/hypervisor.py:389-637 | one copy per kernel requested, per ramdisk and per rootfs override, plus the five common artifacts and the default rootfs when no `--rootfs` is given; dom0's kernel is copied first, and Staging.StagingCopiesOrder gives the position of every other copy; Staging.CopySources, Staging.KernelStagedIffBooted and Staging.StagedTargetsExactly say what lands in the build directory |
| Staging.StagingCopiesOrder | colcon_krs/subverb/hypervisor.py:389-637 | the copies in issue order: dom0's kernel, the default rootfs when no `--rootfs` is given, the i-th domU kernel, the j-th dom0less kernel, the five common artifacts, then the i-th ramdisk and the i-th rootfs override, each at a stated position |
| Staging.CopySources | colcon_krs/subverb/hypervisor.py:389-637 | nothing else is copied: every copy is a booted VM's kernel out of the kernel directory, BOOT.BIN or system.dtb renamed from their Xen variants, or Xen, a default or an override copied under its own name |
| Staging.KernelStagedIffBooted | colcon_krs/subverb/hypervisor.py:386-536 | a kernel image is copied iff dom0, a domU or a dom0less VM boots it |
| Staging.StagedTargets | colcon_krs/subverb/hypervisor.py:560-638 | BOOT.BIN, xen, system.dtb, both defaults, dom0's kernel, every requested kernel and every override are copied into the build directory |
| Staging.StagedTargetsExactly | colcon_krs/subverb/hypervisor.py:389-637 | the build directory receives exactly BOOT.BIN, xen, system.dtb, both defaults, the kernels of the VMs that boot, and the overrides: no other file |
| Staging.ConfigNamesOnlyStagedFiles | colcon_krs/subverb/hypervisor.py:560-638 | every kernel, device tree, BOOT.BIN, Xen, rootfs and ramdisk file the configuration names is among the copied files |
| Staging.StagedOverride | colcon_krs/subverb/hypervisor.py:604-638 | every ramdisk and rootfs override is copied under its own name |
| Staging.CheckedPaths | colcon_krs/subverb/hypervisor.py:419-636 | a path is asserted to exist iff it is a ramdisk or rootfs override, or the default rootfs when no `--rootfs` is given; the assertions run in source order, the default rootfs (425) first, then each ramdisk (607), then each rootfs override (625); Staging.FirstMissing and Staging.Run say which assertion fails |
| Staging.FirstMissing | colcon_krs/subverb/hypervisor.py:604-638 | the first failing existence assertion is at the first missing path, and no assertion fails iff every path exists |
| Staging.FixupPartitions | colcon_krs/subverb/hypervisor.py:754-759 | the patched partitions are 2, 3, ..., `len(domU) + 2`, in increasing order; dom0less VMs add none |
| Staging.Run | colcon_krs/subverb/hypervisor.py:381-766 | a run ends like the planning step; when a configuration is produced, it fails at the first checked path missing from the firmware directory and otherwise succeeds (external commands are taken to succeed, see below); a successful run keeps the plan's configuration and advisory, issues exactly the copies of Staging.StagingCopies, so every file the configuration names is staged, and patches partitions 2 .. `len(domU) + 2` |
| Scenarios.Dom0AndOneDomU | colcon_krs/subverb/hypervisor.py:443-554 | dom0 plus one domU gives the domU index 0 and NUM_DOMUS=1 |
| Scenarios.Dom0lessWithOneRamdisk | colcon_krs/subverb/hypervisor.py:497-554 | two dom0less VMs with one ramdisk take indices 0 and 1, the first ramdisk and then the default, and NUM_DOMUS=2 |
| Scenarios.RootfsStartsIndicesAtOne | colcon_krs/subverb/hypervisor.py:429-554 | with rootfs overrides, dom0 takes the first, the domU takes the second at index 1, and the dom0less VM takes index 2 |
| Scenarios.RootfsWithoutDom0lessCrashes | colcon_krs/subverb/hypervisor.py:214-218 | `--rootfs` with domUs but no dom0less VM ends in `len(None)` |
| Scenarios.RamdisksWithoutDom0lessPass | colcon_krs/subverb/hypervisor.py:197-212 | two ramdisks with a domU and no dom0less VM are accepted |
| Scenarios.DomUWithoutDom0DoesNothing | colcon_krs/subverb/hypervisor.py:765-766 | a domU without dom0 yields nothing, even with override counts the checks would reject |
| Scenarios.TemplateConfigLines | colcon_krs/subverb/hypervisor.py:28-36 | the seven template lines have exactly the keys and values of `TEMPLATE_CONFIG`, from `MEMORY_START=0x0` to `UBOOT_SCRIPT=boot.scr`, in file order |

## Left out

- Shell commands (`mkdir`, `cp`, `mv`, `rm`, `sudo`, `chown`, `whoami`): I/O with no
  logic to check. The copies are a list of source and target pairs, and file existence
  is a set of firmware paths passed in.
- The `sed` inittab rewrite and the `/var/lib/xen` creation inside `xen_fixes`: I/O.
  Only the partition numbers `xen_fixes` is called with are modelled.
- Mounting and unmounting raw images, and the ImageBuilder scripts `uboot-script-gen`
  and `disk_image`: external tools whose code is not part of this model.
- The `mkdir` of the staging directory and the rotation of an existing `sd_card.img` to
  `sd_card.img.old`, which deletes any older `sd_card.img.old`: file I/O. Both run before
  `argument_checks`, so they also happen when a check fails and when no dom0 is given.
- `default_hypervisor_setup`: its only call is commented out.
- argparse and argcomplete setup. Variants are a two-value type, so the
  "Unrecognized ... arg" branches cannot be reached and are not modelled.
- Coloured messages, `--debug` printing and process timeouts: output only.
- Exit statuses. Only the kind of outcome is modelled: nothing requested, no dom0, a
  named failure, or a result.
- Staging.Run: every external command is taken to succeed. In the code, a run whose
  checked paths all exist still exits with status 1 when `uboot-script-gen`, `whoami`,
  `disk_image`, `chown`, or the `mkdir`/`sed` of `xen_fixes` writes to stderr; those
  outcomes are not modelled. The `cp` results are discarded by the code, so a copy in
  the model means a `cp` issued, not a file known to have arrived.
- The process-global `TEMPLATE_CONFIG` is appended to in place. Each run is modelled as
  starting from the template, as in a fresh process.
- The order of copies and existence assertions relative to each other. The model checks
  every asserted path first and copies only when all exist. A failed assertion stops the
  run either way, so the final outcome is the same.
- ConfigParse.ConfigRoundTrip: holds only when no path contains a newline. Such a path
  would split its line in the file, and the code does not guard against it.

=== FILE: arguments.dfy ===
/** The command line of the hypervisor subverb and the consistency checks it runs
    on the VM lists before a configuration is produced. */
module Arguments {
  import opened XenConfig

  /** The parsed arguments. Each list comes from an argparse `append` option,
      which is None when the option was never given and otherwise holds at
      least one element; the empty sequence stands for that None. */
  datatype Args = Args(
    dom0: Option<Variant>,
    domU: seq<Variant>,
    dom0less: seq<Variant>,
    ramdisk: seq<string>,
    rootfs: seq<string>)

  /** Why a run stops with an error instead of producing an image. */
  datatype Failure =
    | TooManyRamdisks                // message and exit status 1
    | TooManyRootfs                  // message and exit status 1
    | TooManyOverrides               // message and exit status 1
    | LenOfNone                      // `len(None)`: an uncaught TypeError
    | MissingArtifact(path: string)  // a failed `assert exists(...)`: an uncaught AssertionError

  /** The outcome of the checks: accepted, possibly with the non-fatal
      "more VMs than ramdisks and rootfs" advisory, or stopped. */
  datatype Verdict = Pass(advisory: bool) | Fail(failure: Failure)

  /** `len()` of an `append` list: None stands for the TypeError `len(None)` raises. */
  function Len<T>(xs: seq<T>): (r: Option<nat>)
    ensures r.Some? <==> |xs| > 0
    ensures r.Some? ==> r.value == |xs|
  {
    if |xs| == 0 then None else Some(|xs|)
  }

  /** `len(domU_args) + len(dom0less_args) + 1`, the number of VM slots
      counting dom0; None when either list is absent. */
  function Slots(a: Args): (r: Option<nat>)
    ensures r.Some? <==> |a.domU| > 0 && |a.dom0less| > 0
    ensures r.Some? ==> r.value == |a.domU| + |a.dom0less| + 1
  {
    match (Len(a.domU), Len(a.dom0less))
    case (Some(u), Some(l)) => Some(u + l + 1)
    case _ => None
  }

  /** The ramdisk condition exactly as written: `and` binds tighter than `or`,
      and the lengths are only taken of lists already known to be present.
      The first disjunct implies the second, so the test reduces to
      "fewer dom0less VMs than ramdisks"; a large domU list does not help,
      and ramdisks with no dom0less VM at all are let through. */
  predicate RamdiskOverrun(a: Args)
    ensures RamdiskOverrun(a) <==>
      |a.ramdisk| > 0 && |a.dom0less| > 0 && |a.dom0less| < |a.ramdisk|
  {
    || (|a.ramdisk| > 0 && |a.domU| > 0 && |a.dom0less| > 0
        && |a.domU| + |a.dom0less| < |a.ramdisk|)
    || (|a.ramdisk| > 0 && |a.dom0less| > 0 && |a.dom0less| < |a.ramdisk|)
  }

  /** The four checks in source order. The rootfs check is the first to take
      `len` of the domU and dom0less lists unguarded, so any `--rootfs` given
      without both `--domU` and `--dom0less` ends in `len(None)`; the two
      later checks only run when `--rootfs` is given and so cannot raise it
      again. */
  function ArgumentChecks(a: Args): (r: Verdict)
    ensures r == Fail(TooManyRamdisks) <==>
      |a.ramdisk| > 0 && |a.dom0less| > 0 && |a.dom0less| < |a.ramdisk|
    ensures r == Fail(LenOfNone) <==>
      !RamdiskOverrun(a) && |a.rootfs| > 0 && (|a.domU| == 0 || |a.dom0less| == 0)
    ensures r == Fail(TooManyRootfs) <==>
      !RamdiskOverrun(a) && |a.rootfs| > 0 && |a.domU| > 0 && |a.dom0less| > 0
      && |a.domU| + |a.dom0less| + 1 < |a.rootfs|
    ensures r == Fail(TooManyOverrides) <==>
      !RamdiskOverrun(a) && |a.rootfs| > 0 && |a.domU| > 0 && |a.dom0less| > 0
      && |a.rootfs| <= |a.domU| + |a.dom0less| + 1
      && |a.ramdisk| > 0 && |a.domU| + |a.dom0less| + 1 < |a.ramdisk| + |a.rootfs|
    ensures r.Fail? ==> r.failure in {TooManyRamdisks, TooManyRootfs, TooManyOverrides, LenOfNone}
    ensures r.Pass? <==>
      && !RamdiskOverrun(a)
      && (|a.rootfs| == 0
          || (&& |a.domU| > 0 && |a.dom0less| > 0
              && |a.rootfs| <= |a.domU| + |a.dom0less| + 1
              && (|a.ramdisk| == 0 || |a.ramdisk| + |a.rootfs| <= |a.domU| + |a.dom0less| + 1)))
    ensures r.Pass? ==> |a.rootfs| <= |a.domU| + |a.dom0less| + 1
    ensures r.Pass? && |a.ramdisk| > 0 && |a.rootfs| > 0 ==>
      |a.ramdisk| + |a.rootfs| <= |a.domU| + |a.dom0less| + 1
    ensures r.Pass? && |a.dom0less| > 0 ==> |a.ramdisk| <= |a.dom0less|
    ensures r.Pass? && |a.rootfs| > 0 ==> |a.domU| > 0 && |a.dom0less| > 0
    ensures r.Pass? ==> (r.advisory <==>
      |a.ramdisk| > 0 && |a.rootfs| > 0 && |a.ramdisk| + |a.rootfs| < |a.domU| + |a.dom0less| + 1)
  {
    if RamdiskOverrun(a) then Fail(TooManyRamdisks)
    else if |a.rootfs| == 0 then Pass(false)
    else match Slots(a)
      case None => Fail(LenOfNone)
      case Some(slots) =>
        if slots < |a.rootfs| then Fail(TooManyRootfs)
        else if |a.ramdisk| > 0 && slots < |a.ramdisk| + |a.rootfs| then Fail(TooManyOverrides)
        else Pass(|a.ramdisk| > 0 && slots > |a.ramdisk| + |a.rootfs|)
  }
}

=== FILE: config_parse.dfy ===
/** Reading `xen.cfg` text back into lines. The parser is the partner of the
    renderer in XenConfig: every configuration whose file names contain no
    newline renders to text that parses back to exactly the same lines. */
module ConfigParse {
  import opened XenConfig

  /** Position of the first occurrence of `c` in `s`. */
  function FirstIndexOf(s: string, c: char): (r: Option<nat>)
    ensures r.Some? ==> r.value < |s| && s[r.value] == c
    ensures r.Some? ==> forall j :: 0 <= j < r.value ==> s[j] != c
    ensures r.None? ==> c !in s
  {
    if |s| == 0 then None
    else if s[0] == c then Some(0)
    else match FirstIndexOf(s[1..], c)
      case None => None
      case Some(i) => Some(i + 1)
  }

  /** Value of a string of decimal digits. */
  function DigitsValue(s: string): nat
    requires AllDigits(s)
  {
    if |s| == 0 then 0 else 10 * DigitsValue(s[..|s| - 1]) + (s[|s| - 1] as int - '0' as int)
  }

  function ParseNat(s: string): Option<nat>
  {
    if |s| > 0 && AllDigits(s) then Some(DigitsValue(s)) else None
  }

  function ParseVariant(file: string): Option<Variant>
  {
    if file == "Image" then Some(Vanilla)
    else if file == "Image_PREEMPT_RT" then Some(PreemptRt)
    else None
  }

  function Unquote(s: string): Option<string>
  {
    if |s| >= 2 && s[0] == '"' && s[|s| - 1] == '"' then Some(s[1..|s| - 1]) else None
  }

  function ParseTemplateKey(name: string): Option<TemplateKey>
  {
    if name == "MEMORY_START" then Some(MemoryStart)
    else if name == "MEMORY_END" then Some(MemoryEnd)
    else if name == "DEVICE_TREE" then Some(DeviceTree)
    else if name == "BOOTBIN" then Some(BootBin)
    else if name == "XEN" then Some(XenImage)
    else if name == "UBOOT_SOURCE" then Some(UbootSource)
    else if name == "UBOOT_SCRIPT" then Some(UbootScript)
    else None
  }

  /** An array entry `NAME[index]=value`. */
  function ParseArrayEntry(key: string, value: string): Option<Line>
  {
    match FirstIndexOf(key, '[')
    case None => None
    case Some(o) =>
      if o + 2 > |key| || key[|key| - 1] != ']' then None
      else match ParseNat(key[o + 1..|key| - 1])
        case None => None
        case Some(i) => ArrayEntry(key[..o], i, value)
  }

  /** The array entry named `name` at index `i` whose right-hand side is `value`. */
  function ArrayEntry(name: string, i: nat, value: string): Option<Line>
  {
    if name == "DOMU_NOBOOT" then
      (if value == "y" then Some(DomUNoBoot(i)) else None)
    else match Unquote(value)
      case None => None
      case Some(file) =>
        if name == "DOMU_KERNEL" then
          (match ParseVariant(file)
           case None => None
           case Some(v) => Some(DomUKernel(i, v)))
        else if name == "DOMU_ROOTFS" then Some(DomURootfs(i, file))
        else if name == "DOMU_RAMDISK" then Some(DomURamdisk(i, file))
        else None
  }

  /** A `KEY=value` line, split at its first `=`. */
  function ParseEntry(key: string, value: string): Option<Line>
  {
    match ParseTemplateKey(key)
    case Some(k) => if value == TemplateValue(k) then Some(Template(k)) else None
    case None =>
      if key == "DOM0_KERNEL" then
        (match ParseVariant(value)
         case None => None
         case Some(v) => Some(Dom0Kernel(v)))
      else if key == "DOM0_ROOTFS" then Some(Dom0Rootfs(value))
      else if key == "NUM_DOMUS" then
        (match ParseNat(value)
         case None => None
         case Some(n) => Some(NumDomUs(n)))
      else ParseArrayEntry(key, value)
  }

  function ParseLine(s: string): Option<Line>
  {
    match FirstIndexOf(s, '=')
    case None => None
    case Some(e) => ParseEntry(s[..e], s[e + 1..])
  }

  /** Splits the text into newline-terminated lines and parses each. */
  function ParseConfig(text: string): Option<seq<Line>>
    decreases |text|
  {
    if |text| == 0 then Some([])
    else match FirstIndexOf(text, '\n')
      case None => None
      case Some(e) =>
        match ParseLine(text[..e])
        case None => None
        case Some(l) =>
          match ParseConfig(text[e + 1..])
          case None => None
          case Some(rest) => Some([l] + rest)
  }

  lemma {:induction false} DigitsOfNatToString(n: nat)
    ensures DigitsValue(NatToString(n)) == n
    decreases n
  {
    var s := NatToString(n);
    if n >= 10 {
      var t := NatToString(n / 10);
      assert s == t + [DigitChar(n % 10)];
      assert s[..|s| - 1] == t;
      DigitsOfNatToString(n / 10);
    }
  }

  lemma ParseNatRoundTrip(n: nat)
    ensures ParseNat(NatToString(n)) == Some(n)
  {
    DigitsOfNatToString(n);
  }

  /** An array key splits back into its name and index at its first `[`. */
  lemma ArrayKeyRoundTrip(name: string, i: nat, value: string)
    requires '[' !in name
    ensures ParseArrayEntry(ArrayKey(name, i), value) == ArrayEntry(name, i, value)
  {
    var key := ArrayKey(name, i);
    var d := NatToString(i);
    assert key == name + "[" + d + "]";
    assert key[|name|] == '[';
    assert forall j :: 0 <= j < |name| ==> key[j] == name[j];
    assert FirstIndexOf(key, '[') == Some(|name|);
    assert key[..|name|] == name;
    assert key[|name| + 1..|key| - 1] == d;
    ParseNatRoundTrip(i);
  }

  lemma UnquoteQuote(s: string)
    ensures Unquote(Quote(s)) == Some(s)
  {
    assert Quote(s)[1..|Quote(s)| - 1] == s;
  }

  /** Splitting `a + [c] + b` at its first `c` gives back `a` and `b` when `c` is not in `a`. */
  lemma SplitAtFirst(a: string, c: char, b: string)
    requires c !in a
    ensures FirstIndexOf(a + [c] + b, c) == Some(|a|)
    ensures (a + [c] + b)[..|a|] == a && (a + [c] + b)[|a| + 1..] == b
  {
    var s := a + [c] + b;
    assert forall j :: 0 <= j < |a| ==> s[j] == a[j];
    assert s[|a|] == c;
  }

  lemma KernelEntryRoundTrip(i: nat, v: Variant)
    ensures ArrayEntry("DOMU_KERNEL", i, Quote(KernelFile(v))) == Some(DomUKernel(i, v))
  {
    assert "DOMU_KERNEL" != "DOMU_NOBOOT" by { assert "DOMU_KERNEL"[5] != "DOMU_NOBOOT"[5]; }
    UnquoteQuote(KernelFile(v));
    assert "Image" != "Image_PREEMPT_RT";
  }

  lemma RootfsEntryRoundTrip(i: nat, p: string)
    ensures ArrayEntry("DOMU_ROOTFS", i, Quote(p)) == Some(DomURootfs(i, p))
  {
    assert "DOMU_ROOTFS" != "DOMU_NOBOOT" by { assert "DOMU_ROOTFS"[5] != "DOMU_NOBOOT"[5]; }
    assert "DOMU_ROOTFS" != "DOMU_KERNEL" by { assert "DOMU_ROOTFS"[5] != "DOMU_KERNEL"[5]; }
    UnquoteQuote(p);
  }

  lemma RamdiskEntryRoundTrip(i: nat, p: string)
    ensures ArrayEntry("DOMU_RAMDISK", i, Quote(p)) == Some(DomURamdisk(i, p))
  {
    UnquoteQuote(p);
  }

  lemma ArrayEntryRoundTrip(l: Line)
    requires l.Indexed()
    ensures ParseArrayEntry(Key(l), Value(l)) == Some(l)
  {
    match l
    case DomUKernel(i, v) =>
      ArrayKeyRoundTrip("DOMU_KERNEL", i, Value(l));
      KernelEntryRoundTrip(i, v);
    case DomURootfs(i, p) =>
      ArrayKeyRoundTrip("DOMU_ROOTFS", i, Value(l));
      RootfsEntryRoundTrip(i, p);
    case DomUNoBoot(i) =>
      ArrayKeyRoundTrip("DOMU_NOBOOT", i, Value(l));
    case DomURamdisk(i, p) =>
      ArrayKeyRoundTrip("DOMU_RAMDISK", i, Value(l));
      RamdiskEntryRoundTrip(i, p);
  }

  lemma TemplateKeyRoundTrip(k: TemplateKey)
    ensures ParseTemplateKey(TemplateName(k)) == Some(k)
  {
  }

  lemma LongKeyIsNotTemplate(key: string)
    requires |key| > 12
    ensures ParseTemplateKey(key) == None
  {
  }

  lemma EntryRoundTrip(l: Line)
    ensures ParseEntry(Key(l), Value(l)) == Some(l)
  {
    match l
    case Template(k) =>
      TemplateKeyRoundTrip(k);
    case Dom0Kernel(v) =>
      assert ParseTemplateKey("DOM0_KERNEL") == None;
    case Dom0Rootfs(p) =>
      assert ParseTemplateKey("DOM0_ROOTFS") == None;
      assert "DOM0_ROOTFS" != "DOM0_KERNEL" by { assert "DOM0_ROOTFS"[5] != "DOM0_KERNEL"[5]; }
    case NumDomUs(n) =>
      assert ParseTemplateKey("NUM_DOMUS") == None;
      ParseNatRoundTrip(n);
    case _ =>
      ArrayKeyIsNotSpecial(l);
      ArrayEntryRoundTrip(l);
  }

  /** An array key is longer than every other key, so only the array branch can read it. */
  lemma ArrayKeyIsNotSpecial(l: Line)
    requires l.Indexed()
    ensures ParseEntry(Key(l), Value(l)) == ParseArrayEntry(Key(l), Value(l))
  {
    var key := Key(l);
    assert |key| > 12 by { assert |NatToString(l.index)| >= 1; }
    LongKeyIsNotTemplate(key);
    assert key != "DOM0_KERNEL" && key != "DOM0_ROOTFS" && key != "NUM_DOMUS";
  }

  /** Rendering a line and parsing the text gives the line back. */
  lemma LineRoundTrip(l: Line)
    ensures ParseLine(RenderLine(l)) == Some(l)
  {
    SplitAtFirst(Key(l), '=', Value(l));
    assert RenderLine(l) == Key(l) + ['='] + Value(l);
    EntryRoundTrip(l);
  }

  /** Rendering a configuration and parsing the text gives the same lines back,
      provided no file name in it contains a newline. */
  lemma {:induction false} ConfigRoundTrip(ls: seq<Line>)
    requires forall i :: 0 <= i < |ls| ==> LineSafe(ls[i])
    ensures ParseConfig(RenderConfig(ls)) == Some(ls)
  {
    if |ls| > 0 {
      var tail := ls[1..];
      assert forall i :: 0 <= i < |tail| ==> LineSafe(tail[i]) by {
        forall i | 0 <= i < |tail| ensures LineSafe(tail[i]) { assert tail[i] == ls[i + 1]; }
      }
      ConfigRoundTrip(tail);
      LineRoundTrip(ls[0]);
      assert LineSafe(ls[0]);
      ParseConfigStep(RenderConfig(ls), RenderLine(ls[0]), RenderConfig(tail), ls);
    }
  }

  /** A first line without a newline that parses to the first of `ls`,
      followed by text that parses to the rest of `ls`, parses to `ls`. */
  lemma ParseConfigStep(text: string, line: string, rest: string, ls: seq<Line>)
    requires |ls| > 0 && '\n' !in line && text == line + "\n" + rest
    requires ParseLine(line) == Some(ls[0]) && ParseConfig(rest) == Some(ls[1..])
    ensures ParseConfig(text) == Some(ls)
  {
    SplitAtFirst(line, '\n', rest);
    assert [ls[0]] + ls[1..] == ls;
  }
}

=== FILE: planner.dfy ===
/** The configuration planner: from the requested VMs and overrides, the lines
    of `xen.cfg` in the order the subverb appends them. */
module Planner {
  import opened XenConfig
  import opened Arguments

  /** What a run produces, or why it stopped without producing anything. */
  datatype Outcome<T> =
    | Done(value: T)
    | NothingRequested          // no dom0, domU or dom0less: message, exit status 0
    | NoDom0                    // domU or dom0less without dom0: message, nothing else
    | Failed(failure: Failure)

  /** A generated configuration, and whether the non-fatal advisory was printed. */
  datatype Generated = Generated(config: seq<Line>, advisory: bool)

  /** The rootfs read at cursor position `i`: the override there, or the default. */
  function RootfsAt(rootfs: seq<string>, i: nat): string
  {
    if i < |rootfs| then rootfs[i] else DefaultRootfs
  }

  /** A rootfs slot holds one of the overrides or the default, and the default
      whenever no override was given. */
  lemma RootfsAtChoice(rootfs: seq<string>, i: nat)
    ensures RootfsAt(rootfs, i) == DefaultRootfs || RootfsAt(rootfs, i) in rootfs
    ensures |rootfs| == 0 ==> RootfsAt(rootfs, i) == DefaultRootfs
  {
  }

  /** The ramdisk read at cursor position `j`: the override there, or the default. */
  function RamdiskAt(ramdisk: seq<string>, j: nat): string
  {
    if j < |ramdisk| then ramdisk[j] else DefaultRamdisk
  }

  /** A ramdisk slot holds one of the overrides or the default, and the default
      whenever no override was given. */
  lemma RamdiskAtChoice(ramdisk: seq<string>, j: nat)
    ensures RamdiskAt(ramdisk, j) == DefaultRamdisk || RamdiskAt(ramdisk, j) in ramdisk
    ensures |ramdisk| == 0 ==> RamdiskAt(ramdisk, j) == DefaultRamdisk
  {
  }

  /** The index of the first domU. The counter `num_domus` names the DOMU_*
      array slot and is also the cursor into the rootfs list; it is moved past
      dom0's rootfs only when `--rootfs` was given, so numbering starts at 1
      then and at 0 otherwise. */
  function FirstIndex(a: Args): nat
  {
    if |a.rootfs| > 0 then 1 else 0
  }

  /** One past the last index in use; this is the value written as NUM_DOMUS. */
  function EndIndex(a: Args): nat
  {
    FirstIndex(a) + |a.domU| + |a.dom0less|
  }

  /** The domU loop: each domU takes the counter's current value as its index
      and as its rootfs cursor, emits three lines, and advances the counter. */
  function DomULines(domU: seq<Variant>, rootfs: seq<string>, counter: nat): (r: seq<Line>)
    ensures |r| == 3 * |domU|
    decreases |domU|
  {
    if |domU| == 0 then []
    else
      var path := if |rootfs| == 0 || counter >= |rootfs| then DefaultRootfs else rootfs[counter];
      [DomUKernel(counter, domU[0]), DomURootfs(counter, path), DomUNoBoot(counter)]
        + DomULines(domU[1..], rootfs, counter + 1)
  }

  /** The dom0less loop: the index is the dom0less cursor plus the counter left
      by the domU loop; the cursor alone selects the ramdisk. */
  function Dom0lessLines(dom0less: seq<Variant>, ramdisk: seq<string>, numDomUs: nat, cursor: nat): (r: seq<Line>)
    ensures |r| == 2 * |dom0less|
    decreases |dom0less|
  {
    if |dom0less| == 0 then []
    else
      var path := if |ramdisk| == 0 || cursor >= |ramdisk| then DefaultRamdisk else ramdisk[cursor];
      [DomUKernel(cursor + numDomUs, dom0less[0]), DomURamdisk(cursor + numDomUs, path)]
        + Dom0lessLines(dom0less[1..], ramdisk, numDomUs, cursor + 1)
  }

  /** The first line of the k-th domU's block is its kernel at index `counter + k`. */
  lemma {:induction false} DomUKernelAt(domU: seq<Variant>, rootfs: seq<string>, counter: nat, k: nat)
    requires k < |domU|
    ensures DomULines(domU, rootfs, counter)[3 * k] == DomUKernel(counter + k, domU[k])
    decreases k
  {
    if k > 0 {
      var rest := DomULines(domU[1..], rootfs, counter + 1);
      DomUKernelAt(domU[1..], rootfs, counter + 1, k - 1);
      assert domU[1..][k - 1] == domU[k];
      assert rest[3 * (k - 1)] == DomUKernel(counter + k, domU[k]);
      assert DomULines(domU, rootfs, counter)[3 * k] == rest[3 * (k - 1)];
    }
  }

  /** The second line of the k-th domU's block names the rootfs at position `counter + k`. */
  lemma {:induction false} DomURootfsAt(domU: seq<Variant>, rootfs: seq<string>, counter: nat, k: nat)
    requires k < |domU|
    ensures DomULines(domU, rootfs, counter)[3 * k + 1] == DomURootfs(counter + k, RootfsAt(rootfs, counter + k))
    decreases k
  {
    if k > 0 {
      var rest := DomULines(domU[1..], rootfs, counter + 1);
      DomURootfsAt(domU[1..], rootfs, counter + 1, k - 1);
      assert rest[3 * (k - 1) + 1] == DomURootfs(counter + k, RootfsAt(rootfs, counter + k));
      assert DomULines(domU, rootfs, counter)[3 * k + 1] == rest[3 * (k - 1) + 1];
    }
  }

  /** The third line of the k-th domU's block is DOMU_NOBOOT at index `counter + k`. */
  lemma {:induction false} DomUNoBootAt(domU: seq<Variant>, rootfs: seq<string>, counter: nat, k: nat)
    requires k < |domU|
    ensures DomULines(domU, rootfs, counter)[3 * k + 2] == DomUNoBoot(counter + k)
    decreases k
  {
    if k > 0 {
      var rest := DomULines(domU[1..], rootfs, counter + 1);
      DomUNoBootAt(domU[1..], rootfs, counter + 1, k - 1);
      assert rest[3 * (k - 1) + 2] == DomUNoBoot(counter + k);
      assert DomULines(domU, rootfs, counter)[3 * k + 2] == rest[3 * (k - 1) + 2];
    }
  }

  /** The k-th domU's three lines carry index `counter + k` and read the rootfs
      at that same position. */
  lemma DomULinesAt(domU: seq<Variant>, rootfs: seq<string>, counter: nat, k: nat)
    requires k < |domU|
    ensures var r := DomULines(domU, rootfs, counter);
      && r[3 * k] == DomUKernel(counter + k, domU[k])
      && r[3 * k + 1] == DomURootfs(counter + k, RootfsAt(rootfs, counter + k))
      && r[3 * k + 2] == DomUNoBoot(counter + k)
  {
    DomUKernelAt(domU, rootfs, counter, k);
    DomURootfsAt(domU, rootfs, counter, k);
    DomUNoBootAt(domU, rootfs, counter, k);
  }

  /** The first line of the j-th dom0less VM's block is its kernel at index `cursor + j + numDomUs`. */
  lemma {:induction false} Dom0lessKernelAt(dom0less: seq<Variant>, ramdisk: seq<string>, numDomUs: nat, cursor: nat, j: nat)
    requires j < |dom0less|
    ensures Dom0lessLines(dom0less, ramdisk, numDomUs, cursor)[2 * j] == DomUKernel(cursor + j + numDomUs, dom0less[j])
    decreases j
  {
    if j > 0 {
      var rest := Dom0lessLines(dom0less[1..], ramdisk, numDomUs, cursor + 1);
      Dom0lessKernelAt(dom0less[1..], ramdisk, numDomUs, cursor + 1, j - 1);
      assert dom0less[1..][j - 1] == dom0less[j];
      assert rest[2 * (j - 1)] == DomUKernel(cursor + j + numDomUs, dom0less[j]);
      assert Dom0lessLines(dom0less, ramdisk, numDomUs, cursor)[2 * j] == rest[2 * (j - 1)];
    }
  }

  /** The second line of the j-th dom0less VM's block names the ramdisk at
      cursor position `cursor + j`. */
  lemma {:induction false} Dom0lessRamdiskAt(dom0less: seq<Variant>, ramdisk: seq<string>, numDomUs: nat, cursor: nat, j: nat)
    requires j < |dom0less|
    ensures Dom0lessLines(dom0less, ramdisk, numDomUs, cursor)[2 * j + 1] ==
      DomURamdisk(cursor + j + numDomUs, RamdiskAt(ramdisk, cursor + j))
    decreases j
  {
    if j > 0 {
      var rest := Dom0lessLines(dom0less[1..], ramdisk, numDomUs, cursor + 1);
      Dom0lessRamdiskAt(dom0less[1..], ramdisk, numDomUs, cursor + 1, j - 1);
      assert rest[2 * (j - 1) + 1] == DomURamdisk(cursor + j + numDomUs, RamdiskAt(ramdisk, cursor + j));
      assert Dom0lessLines(dom0less, ramdisk, numDomUs, cursor)[2 * j + 1] == rest[2 * (j - 1) + 1];
    }
  }

  /** The j-th dom0less VM's two lines carry index `cursor + j + numDomUs`;
      its ramdisk is read at `cursor + j`, independently of the rootfs cursor. */
  lemma Dom0lessLinesAt(dom0less: seq<Variant>, ramdisk: seq<string>, numDomUs: nat, cursor: nat, j: nat)
    requires j < |dom0less|
    ensures var r := Dom0lessLines(dom0less, ramdisk, numDomUs, cursor);
      && r[2 * j] == DomUKernel(cursor + j + numDomUs, dom0less[j])
      && r[2 * j + 1] == DomURamdisk(cursor + j + numDomUs, RamdiskAt(ramdisk, cursor + j))
  {
    Dom0lessKernelAt(dom0less, ramdisk, numDomUs, cursor, j);
    Dom0lessRamdiskAt(dom0less, ramdisk, numDomUs, cursor, j);
  }

  /** Position of the first dom0less line. */
  function Dom0lessStart(a: Args): nat
  {
    9 + 3 * |a.domU|
  }

  /** The configuration built when dom0 is requested: the template, dom0's two
      lines, three lines per domU, two per dom0less VM, and NUM_DOMUS. */
  function AssembleConfig(dom0: Variant, a: Args): (r: seq<Line>)
    ensures |r| == Dom0lessStart(a) + 2 * |a.dom0less| + 1
  {
    var dom0Rootfs := if |a.rootfs| == 0 then DefaultRootfs else a.rootfs[0];
    var counter := if |a.rootfs| == 0 then 0 else 1;
    var afterDomUs := counter + |a.domU|;
    TemplateLines + [Dom0Kernel(dom0), Dom0Rootfs(dom0Rootfs)]
      + DomULines(a.domU, a.rootfs, counter)
      + Dom0lessLines(a.dom0less, a.ramdisk, afterDomUs, 0)
      + [NumDomUs(afterDomUs + |a.dom0less|)]
  }

  /** The template followed by dom0's two lines. */
  function HeadLines(dom0: Variant, a: Args): seq<Line>
  {
    TemplateLines + [Dom0Kernel(dom0), Dom0Rootfs(RootfsAt(a.rootfs, 0))]
  }

  lemma ConfigJoin(dom0: Variant, a: Args)
    ensures AssembleConfig(dom0, a) ==
      HeadLines(dom0, a)
      + DomULines(a.domU, a.rootfs, FirstIndex(a))
      + Dom0lessLines(a.dom0less, a.ramdisk, FirstIndex(a) + |a.domU|, 0)
      + [NumDomUs(EndIndex(a))]
  {
  }

  /** Position `p < 9` holds the p-th line of the head. */
  lemma HeadAt(dom0: Variant, a: Args, p: nat)
    requires p < 9
    ensures p < |AssembleConfig(dom0, a)| && AssembleConfig(dom0, a)[p] == HeadLines(dom0, a)[p]
  {
    ConfigJoin(dom0, a);
  }

  /** Position `9 + q` holds the q-th line of the domU loop. */
  lemma DomUSectionAt(dom0: Variant, a: Args, q: nat)
    requires q < 3 * |a.domU|
    ensures 9 + q < |AssembleConfig(dom0, a)|
    ensures AssembleConfig(dom0, a)[9 + q] == DomULines(a.domU, a.rootfs, FirstIndex(a))[q]
  {
    ConfigJoin(dom0, a);
    var h := HeadLines(dom0, a);
    var u := DomULines(a.domU, a.rootfs, FirstIndex(a));
    assert |h| == 9;
    assert (h + u)[9 + q] == u[q];
  }

  /** Position `Dom0lessStart(a) + q` holds the q-th line of the dom0less loop. */
  lemma Dom0lessSectionAt(dom0: Variant, a: Args, q: nat)
    requires q < 2 * |a.dom0less|
    ensures Dom0lessStart(a) + q < |AssembleConfig(dom0, a)|
    ensures AssembleConfig(dom0, a)[Dom0lessStart(a) + q] ==
      Dom0lessLines(a.dom0less, a.ramdisk, FirstIndex(a) + |a.domU|, 0)[q]
  {
    ConfigJoin(dom0, a);
    var hu := HeadLines(dom0, a) + DomULines(a.domU, a.rootfs, FirstIndex(a));
    var l := Dom0lessLines(a.dom0less, a.ramdisk, FirstIndex(a) + |a.domU|, 0);
    assert |hu| == Dom0lessStart(a);
    assert (hu + l)[Dom0lessStart(a) + q] == l[q];
  }

  /** The last line is NUM_DOMUS. */
  lemma LastAt(dom0: Variant, a: Args)
    ensures AssembleConfig(dom0, a)[|AssembleConfig(dom0, a)| - 1] == NumDomUs(EndIndex(a))
  {
    ConfigJoin(dom0, a);
  }

  /** The configuration cut into its four sections. */
  lemma ConfigSections(dom0: Variant, a: Args)
    ensures var r := AssembleConfig(dom0, a);
      && r[..7] == TemplateLines
      && r[7] == Dom0Kernel(dom0)
      && r[8] == Dom0Rootfs(RootfsAt(a.rootfs, 0))
      && r[9..Dom0lessStart(a)] == DomULines(a.domU, a.rootfs, FirstIndex(a))
      && r[Dom0lessStart(a)..|r| - 1] == Dom0lessLines(a.dom0less, a.ramdisk, FirstIndex(a) + |a.domU|, 0)
      && r[|r| - 1] == NumDomUs(EndIndex(a))
  {
    var head := TemplateLines + [Dom0Kernel(dom0), Dom0Rootfs(RootfsAt(a.rootfs, 0))];
    var domUs := DomULines(a.domU, a.rootfs, FirstIndex(a));
    var dom0lesses := Dom0lessLines(a.dom0less, a.ramdisk, FirstIndex(a) + |a.domU|, 0);
    var r := AssembleConfig(dom0, a);
    assert r == head + domUs + dom0lesses + [NumDomUs(EndIndex(a))];
    assert |head| == 9;
    assert r[..9] == head;
    assert r[9..Dom0lessStart(a)] == domUs;
    assert r[Dom0lessStart(a)..|r| - 1] == dom0lesses;
  }

  /** The k-th domU sits at index `FirstIndex(a) + k` and reads the rootfs at
      that same position of the rootfs list. */
  lemma DomUSlot(dom0: Variant, a: Args, k: nat)
    requires k < |a.domU|
    ensures var r := AssembleConfig(dom0, a);
      && r[9 + 3 * k] == DomUKernel(FirstIndex(a) + k, a.domU[k])
      && r[9 + 3 * k + 1] == DomURootfs(FirstIndex(a) + k, RootfsAt(a.rootfs, FirstIndex(a) + k))
      && r[9 + 3 * k + 2] == DomUNoBoot(FirstIndex(a) + k)
  {
    DomULinesAt(a.domU, a.rootfs, FirstIndex(a), k);
    DomUSectionAt(dom0, a, 3 * k);
    DomUSectionAt(dom0, a, 3 * k + 1);
    DomUSectionAt(dom0, a, 3 * k + 2);
  }

  /** The j-th dom0less VM sits right after the last domU and reads the j-th
      ramdisk, whatever the rootfs list holds. */
  lemma Dom0lessSlot(dom0: Variant, a: Args, j: nat)
    requires j < |a.dom0less|
    ensures var r := AssembleConfig(dom0, a);
      && r[Dom0lessStart(a) + 2 * j] == DomUKernel(FirstIndex(a) + |a.domU| + j, a.dom0less[j])
      && r[Dom0lessStart(a) + 2 * j + 1] == DomURamdisk(FirstIndex(a) + |a.domU| + j, RamdiskAt(a.ramdisk, j))
  {
    Dom0lessKernelSlot(dom0, a, j);
    Dom0lessRamdiskSlot(dom0, a, j);
  }

  lemma Dom0lessKernelSlot(dom0: Variant, a: Args, j: nat)
    requires j < |a.dom0less|
    ensures AssembleConfig(dom0, a)[Dom0lessStart(a) + 2 * j] == DomUKernel(FirstIndex(a) + |a.domU| + j, a.dom0less[j])
  {
    var n := FirstIndex(a) + |a.domU|;
    Dom0lessKernelAt(a.dom0less, a.ramdisk, n, 0, j);
    Dom0lessSectionAt(dom0, a, 2 * j);
  }

  lemma Dom0lessRamdiskSlot(dom0: Variant, a: Args, j: nat)
    requires j < |a.dom0less|
    ensures AssembleConfig(dom0, a)[Dom0lessStart(a) + 2 * j + 1] ==
      DomURamdisk(FirstIndex(a) + |a.domU| + j, RamdiskAt(a.ramdisk, j))
  {
    var n := FirstIndex(a) + |a.domU|;
    Dom0lessRamdiskAt(a.dom0less, a.ramdisk, n, 0, j);
    Dom0lessSectionAt(dom0, a, 2 * j + 1);
  }

  /** Where the block of lines of the VM with index `i` starts. */
  function SlotStart(a: Args, i: nat): nat
    requires FirstIndex(a) <= i < EndIndex(a)
  {
    if i < FirstIndex(a) + |a.domU| then 9 + 3 * (i - FirstIndex(a))
    else Dom0lessStart(a) + 2 * (i - FirstIndex(a) - |a.domU|)
  }

  /** How many lines the VM with index `i` emits: three for a domU, two for a dom0less VM. */
  function SlotWidth(a: Args, i: nat): nat
  {
    if i < FirstIndex(a) + |a.domU| then 3 else 2
  }

  /** Lines outside the domU and dom0less sections carry no index. */
  lemma UnindexedOutsideSlots(dom0: Variant, a: Args, p: nat)
    requires p < |AssembleConfig(dom0, a)|
    requires p < 9 || p == |AssembleConfig(dom0, a)| - 1
    ensures !AssembleConfig(dom0, a)[p].Indexed()
  {
    if p < 9 {
      HeadAt(dom0, a, p);
    } else {
      LastAt(dom0, a);
    }
  }

  /** A line of the domU section belongs to the block of the domU it describes. */
  lemma DomUSectionLine(dom0: Variant, a: Args, p: nat)
    requires 9 <= p < Dom0lessStart(a)
    ensures var l := AssembleConfig(dom0, a)[p];
      && l.Indexed() && l.index == FirstIndex(a) + (p - 9) / 3
      && (l.DomUKernel? <==> p == 9 + 3 * ((p - 9) / 3))
      && !l.DomURamdisk?
  {
    var k := (p - 9) / 3;
    assert 9 + 3 * k <= p < 9 + 3 * k + 3;
    DomUSlot(dom0, a, k);
  }

  /** A line of the dom0less section belongs to the block of the dom0less VM it describes. */
  lemma Dom0lessSectionLine(dom0: Variant, a: Args, p: nat)
    requires Dom0lessStart(a) <= p < |AssembleConfig(dom0, a)| - 1
    ensures var l := AssembleConfig(dom0, a)[p];
      && l.Indexed() && l.index == FirstIndex(a) + |a.domU| + (p - Dom0lessStart(a)) / 2
      && (l.DomUKernel? <==> p == Dom0lessStart(a) + 2 * ((p - Dom0lessStart(a)) / 2))
      && (l.DomUKernel? || l.DomURamdisk?)
  {
    var j := (p - Dom0lessStart(a)) / 2;
    assert Dom0lessStart(a) + 2 * j <= p < Dom0lessStart(a) + 2 * j + 2;
    Dom0lessSlot(dom0, a, j);
  }

  /** Every DOMU_* line carries an index in `FirstIndex(a) .. EndIndex(a) - 1`
      and sits inside that index's block; the block opens with its only
      DOMU_KERNEL line; ROOTFS and NOBOOT lines belong to domUs and RAMDISK
      lines to dom0less VMs. */
  lemma IndexedLine(dom0: Variant, a: Args, p: nat)
    requires p < |AssembleConfig(dom0, a)| && AssembleConfig(dom0, a)[p].Indexed()
    ensures var l := AssembleConfig(dom0, a)[p];
      && FirstIndex(a) <= l.index < EndIndex(a)
      && SlotStart(a, l.index) <= p < SlotStart(a, l.index) + SlotWidth(a, l.index)
      && (l.DomUKernel? <==> p == SlotStart(a, l.index))
      && (l.DomURootfs? || l.DomUNoBoot? ==> l.index < FirstIndex(a) + |a.domU|)
      && (l.DomURamdisk? ==> FirstIndex(a) + |a.domU| <= l.index)
  {
    var r := AssembleConfig(dom0, a);
    if p < 9 || p == |r| - 1 {
      UnindexedOutsideSlots(dom0, a, p);
    } else if p < Dom0lessStart(a) {
      DomUSectionLine(dom0, a, p);
    } else {
      Dom0lessSectionLine(dom0, a, p);
    }
  }

  /** Each index in `FirstIndex(a) .. EndIndex(a) - 1` opens its block with a
      DOMU_KERNEL line: there are no gaps. */
  lemma SlotOpensWithKernel(dom0: Variant, a: Args, i: nat)
    requires FirstIndex(a) <= i < EndIndex(a)
    ensures SlotStart(a, i) < |AssembleConfig(dom0, a)|
    ensures var l := AssembleConfig(dom0, a)[SlotStart(a, i)];
      l.DomUKernel? && l.index == i
  {
    if i < FirstIndex(a) + |a.domU| {
      DomUSlot(dom0, a, i - FirstIndex(a));
    } else {
      Dom0lessSlot(dom0, a, i - FirstIndex(a) - |a.domU|);
    }
  }

  /** Indices are handed out without gaps and without reuse: every index in
      range opens its block with a DOMU_KERNEL line, no two DOMU_KERNEL lines
      share an index, and no DOMU_* line uses an index outside the range. */
  lemma IndicesWithoutGapsOrReuse(dom0: Variant, a: Args)
    ensures var r := AssembleConfig(dom0, a);
      && (forall p :: 0 <= p < |r| && r[p].Indexed() ==> FirstIndex(a) <= r[p].index < EndIndex(a))
      && (forall p, q :: 0 <= p < q < |r| && r[p].DomUKernel? && r[q].DomUKernel? ==> r[p].index != r[q].index)
      && (forall i :: FirstIndex(a) <= i < EndIndex(a) ==>
            SlotStart(a, i) < |r| && r[SlotStart(a, i)].DomUKernel? && r[SlotStart(a, i)].index == i)
  {
    var r := AssembleConfig(dom0, a);
    forall p | 0 <= p < |r| && r[p].Indexed()
      ensures FirstIndex(a) <= r[p].index < EndIndex(a)
    {
      IndexedLine(dom0, a, p);
    }
    forall p, q | 0 <= p < q < |r| && r[p].DomUKernel? && r[q].DomUKernel?
      ensures r[p].index != r[q].index
    {
      IndexedLine(dom0, a, p);
      IndexedLine(dom0, a, q);
    }
    forall i | FirstIndex(a) <= i < EndIndex(a)
      ensures SlotStart(a, i) < |r| && r[SlotStart(a, i)].DomUKernel? && r[SlotStart(a, i)].index == i
    {
      SlotOpensWithKernel(dom0, a, i);
    }
  }

  /** Rootfs overrides only reach dom0 and domU lines and ramdisk overrides only
      reach dom0less lines; with no override given, every slot gets the default. */
  lemma OverridesStayInTheirSlots(dom0: Variant, a: Args, p: nat)
    requires p < |AssembleConfig(dom0, a)|
    ensures var l := AssembleConfig(dom0, a)[p];
      && (l.NamesRootfs() ==> l.path in a.rootfs || l.path == DefaultRootfs)
      && (l.NamesRootfs() && |a.rootfs| == 0 ==> l.path == DefaultRootfs)
      && (l.DomURamdisk? ==> l.path in a.ramdisk || l.path == DefaultRamdisk)
      && (l.DomURamdisk? && |a.ramdisk| == 0 ==> l.path == DefaultRamdisk)
  {
    var l := AssembleConfig(dom0, a)[p];
    var b := FirstIndex(a);
    var d := Dom0lessStart(a);
    ConfigIsLineAt(dom0, a, p);
    if p < 9 || p == |AssembleConfig(dom0, a)| - 1 {
      RootfsAtChoice(a.rootfs, 0);
      assert l.NamesRootfs() ==> l == Dom0Rootfs(RootfsAt(a.rootfs, 0));
    } else if p < d {
      var k := (p - 9) / 3;
      RootfsAtChoice(a.rootfs, b + k);
      assert l.NamesRootfs() ==> l == DomURootfs(b + k, RootfsAt(a.rootfs, b + k));
    } else {
      var j := (p - d) / 2;
      RamdiskAtChoice(a.ramdisk, j);
      assert l.DomURamdisk? ==> l == DomURamdisk(b + |a.domU| + j, RamdiskAt(a.ramdisk, j));
    }
  }

  /** DOM0_KERNEL names dom0's variant and every DOMU_KERNEL line the variant
      of a requested domU or dom0less VM. */
  lemma KernelLinesBootRequestedVariants(dom0: Variant, a: Args, p: nat)
    requires p < |AssembleConfig(dom0, a)|
    ensures var l := AssembleConfig(dom0, a)[p];
      && (l.Dom0Kernel? ==> l.variant == dom0)
      && (l.DomUKernel? ==> l.variant in a.domU || l.variant in a.dom0less)
  {
    var l := AssembleConfig(dom0, a)[p];
    var b := FirstIndex(a);
    var d := Dom0lessStart(a);
    ConfigIsLineAt(dom0, a, p);
    if p < 9 || p == |AssembleConfig(dom0, a)| - 1 {
      assert !l.DomUKernel?;
    } else if p < d {
      var k := (p - 9) / 3;
      assert l.DomUKernel? ==> l == DomUKernel(b + k, a.domU[k]);
    } else {
      var j := (p - d) / 2;
      assert l.DomUKernel? ==> l == DomUKernel(b + |a.domU| + j, a.dom0less[j]);
    }
  }

  /** The line at position `p` of the configuration, computed from `p` alone
      rather than by running the loops: an independent description of the file. */
  function LineAt(dom0: Variant, a: Args, p: nat): Line
    requires p < Dom0lessStart(a) + 2 * |a.dom0less| + 1
  {
    var b := FirstIndex(a);
    var d := Dom0lessStart(a);
    if p < 7 then TemplateLines[p]
    else if p == 7 then Dom0Kernel(dom0)
    else if p == 8 then Dom0Rootfs(RootfsAt(a.rootfs, 0))
    else if p < d then
      var k := (p - 9) / 3;
      if (p - 9) % 3 == 0 then DomUKernel(b + k, a.domU[k])
      else if (p - 9) % 3 == 1 then DomURootfs(b + k, RootfsAt(a.rootfs, b + k))
      else DomUNoBoot(b + k)
    else if p < d + 2 * |a.dom0less| then
      var j := (p - d) / 2;
      if (p - d) % 2 == 0 then DomUKernel(b + |a.domU| + j, a.dom0less[j])
      else DomURamdisk(b + |a.domU| + j, RamdiskAt(a.ramdisk, j))
    else NumDomUs(EndIndex(a))
  }

  lemma HeadIsLineAt(dom0: Variant, a: Args, p: nat)
    requires p < |AssembleConfig(dom0, a)|
    requires p < 9 || p == |AssembleConfig(dom0, a)| - 1
    ensures AssembleConfig(dom0, a)[p] == LineAt(dom0, a, p)
  {
    if p < 9 {
      HeadAt(dom0, a, p);
    } else {
      LastAt(dom0, a);
    }
  }

  lemma DomUIsLineAt(dom0: Variant, a: Args, p: nat)
    requires 9 <= p < Dom0lessStart(a)
    ensures AssembleConfig(dom0, a)[p] == LineAt(dom0, a, p)
  {
    var b := FirstIndex(a);
    var k := (p - 9) / 3;
    var m := (p - 9) % 3;
    assert p == 9 + 3 * k + m;
    DomUSlot(dom0, a, k);
    if m == 0 {
      assert LineAt(dom0, a, p) == DomUKernel(b + k, a.domU[k]);
    } else if m == 1 {
      assert LineAt(dom0, a, p) == DomURootfs(b + k, RootfsAt(a.rootfs, b + k));
    } else {
      assert LineAt(dom0, a, p) == DomUNoBoot(b + k);
    }
  }

  lemma Dom0lessIsLineAt(dom0: Variant, a: Args, p: nat)
    requires Dom0lessStart(a) <= p < Dom0lessStart(a) + 2 * |a.dom0less|
    ensures AssembleConfig(dom0, a)[p] == LineAt(dom0, a, p)
  {
    var d := Dom0lessStart(a);
    var j := (p - d) / 2;
    var m := (p - d) % 2;
    assert p == d + 2 * j + m;
    Dom0lessSlot(dom0, a, j);
    if m == 0 {
      assert LineAt(dom0, a, p) == DomUKernel(FirstIndex(a) + |a.domU| + j, a.dom0less[j]);
    } else {
      assert LineAt(dom0, a, p) == DomURamdisk(FirstIndex(a) + |a.domU| + j, RamdiskAt(a.ramdisk, j));
    }
  }

  /** The loops produce, at every position, the line the closed form predicts. */
  lemma ConfigIsLineAt(dom0: Variant, a: Args, p: nat)
    requires p < |AssembleConfig(dom0, a)|
    ensures AssembleConfig(dom0, a)[p] == LineAt(dom0, a, p)
  {
    if p < 9 || p == |AssembleConfig(dom0, a)| - 1 {
      HeadIsLineAt(dom0, a, p);
    } else if p < Dom0lessStart(a) {
      DomUIsLineAt(dom0, a, p);
    } else {
      Dom0lessIsLineAt(dom0, a, p);
    }
  }

  /** Changing the ramdisk list changes nothing but the DOMU_RAMDISK lines: the
      ramdisk cursor never touches dom0, the domUs or any index. */
  lemma RamdisksOnlyChangeRamdiskLines(dom0: Variant, a: Args, ramdisk: seq<string>, p: nat)
    requires p < |AssembleConfig(dom0, a)|
    ensures var r, r' := AssembleConfig(dom0, a), AssembleConfig(dom0, a.(ramdisk := ramdisk));
      && |r'| == |r|
      && (r[p].DomURamdisk? <==> r'[p].DomURamdisk?)
      && (!r[p].DomURamdisk? ==> r'[p] == r[p])
      && (r[p].DomURamdisk? ==> r'[p].index == r[p].index)
  {
    ConfigIsLineAt(dom0, a, p);
    ConfigIsLineAt(dom0, a.(ramdisk := ramdisk), p);
  }

  /** The closed form with and without rootfs overrides, compared position by position. */
  lemma LineAtShift(dom0: Variant, a: Args, rootfs: seq<string>, p: nat)
    requires |a.rootfs| == 0 && |rootfs| > 0
    requires p < Dom0lessStart(a) + 2 * |a.dom0less| + 1
    ensures var l, l' := LineAt(dom0, a, p), LineAt(dom0, a.(rootfs := rootfs), p);
      && (l.Indexed() <==> l'.Indexed())
      && (l.Indexed() ==> l'.index == l.index + 1)
      && (l.DomUKernel? ==> l' == DomUKernel(l.index + 1, l.variant))
      && (l.NumDomUs? ==> l'.NumDomUs? && l.count == |a.domU| + |a.dom0less| && l'.count == l.count + 1)
  {
    var a' := a.(rootfs := rootfs);
    var d := Dom0lessStart(a);
    assert FirstIndex(a) == 0 && FirstIndex(a') == 1 && Dom0lessStart(a') == d;
    if 9 <= p < d {
      var k := (p - 9) / 3;
      var m := (p - 9) % 3;
      if m == 0 {
        assert LineAt(dom0, a, p) == DomUKernel(k, a.domU[k]);
        assert LineAt(dom0, a', p) == DomUKernel(k + 1, a.domU[k]);
      } else if m == 1 {
        assert LineAt(dom0, a, p) == DomURootfs(k, RootfsAt(a.rootfs, k));
        assert LineAt(dom0, a', p) == DomURootfs(k + 1, RootfsAt(rootfs, k + 1));
      } else {
        assert LineAt(dom0, a, p) == DomUNoBoot(k);
        assert LineAt(dom0, a', p) == DomUNoBoot(k + 1);
      }
    } else if d <= p < d + 2 * |a.dom0less| {
      var j := (p - d) / 2;
      if (p - d) % 2 == 0 {
        assert LineAt(dom0, a, p) == DomUKernel(|a.domU| + j, a.dom0less[j]);
        assert LineAt(dom0, a', p) == DomUKernel(1 + |a.domU| + j, a.dom0less[j]);
      } else {
        assert LineAt(dom0, a, p) == DomURamdisk(|a.domU| + j, RamdiskAt(a.ramdisk, j));
        assert LineAt(dom0, a', p) == DomURamdisk(1 + |a.domU| + j, RamdiskAt(a.ramdisk, j));
      }
    }
  }

  /** Passing `--rootfs` moves every VM up by one index, and NUM_DOMUS with them,
      because the rootfs cursor and the index counter are the same variable. */
  lemma RootfsShiftsIndices(dom0: Variant, a: Args, rootfs: seq<string>, p: nat)
    requires |a.rootfs| == 0 && |rootfs| > 0
    requires p < |AssembleConfig(dom0, a)|
    ensures var r, r' := AssembleConfig(dom0, a), AssembleConfig(dom0, a.(rootfs := rootfs));
      && |r'| == |r|
      && (r[p].Indexed() <==> r'[p].Indexed())
      && (r[p].Indexed() ==> r'[p].index == r[p].index + 1)
      && (r[p].DomUKernel? ==> r'[p] == DomUKernel(r[p].index + 1, r[p].variant))
      && (r[p].NumDomUs? ==> r'[p].NumDomUs? && r[p].count == |a.domU| + |a.dom0less| && r'[p].count == r[p].count + 1)
  {
    ConfigIsLineAt(dom0, a, p);
    ConfigIsLineAt(dom0, a.(rootfs := rootfs), p);
    LineAtShift(dom0, a, rootfs, p);
  }

  /** The whole planning step: the dispatch on which VMs were requested, the
      checks, and the configuration. */
  function Plan(a: Args): (r: Outcome<Generated>)
    ensures r.NothingRequested? <==> a.dom0.None? && |a.domU| == 0 && |a.dom0less| == 0
    ensures r.NoDom0? <==> a.dom0.None? && (|a.domU| > 0 || |a.dom0less| > 0)
    ensures r.Failed? <==> a.dom0.Some? && ArgumentChecks(a).Fail?
    ensures r.Failed? ==> ArgumentChecks(a) == Fail(r.failure)
    ensures r.Done? ==> a.dom0.Some? && ArgumentChecks(a) == Pass(r.value.advisory)
    ensures r.Done? ==> r.value.config == AssembleConfig(a.dom0.value, a)
    ensures r.Done? && |a.rootfs| > 0 ==> |a.domU| > 0 && |a.dom0less| > 0
  {
    if a.dom0.None? && |a.domU| == 0 && |a.dom0less| == 0 then NothingRequested
    else if a.dom0.None? then NoDom0
    else match ArgumentChecks(a)
      case Fail(f) => Failed(f)
      case Pass(advisory) => Done(Generated(AssembleConfig(a.dom0.value, a), advisory))
  }
}

=== FILE: scenarios.dfy ===
/** Concrete runs of the planner, written out line by line. */
module Scenarios {
  import opened XenConfig
  import opened Arguments
  import opened Planner

  /** dom0 plus one domU, no overrides: the domU gets index 0 and NUM_DOMUS is 1,
      so NUM_DOMUS does not count dom0 here. */
  lemma Dom0AndOneDomU()
    ensures Plan(Args(Some(Vanilla), [PreemptRt], [], [], [])) == Done(Generated(
      TemplateLines + [
        Dom0Kernel(Vanilla), Dom0Rootfs("rootfs.cpio.gz"),
        DomUKernel(0, PreemptRt), DomURootfs(0, "rootfs.cpio.gz"), DomUNoBoot(0),
        NumDomUs(1)],
      false))
  {
    var a := Args(Some(Vanilla), [PreemptRt], [], [], []);
    var r := AssembleConfig(Vanilla, a);
    var e := TemplateLines + [
        Dom0Kernel(Vanilla), Dom0Rootfs("rootfs.cpio.gz"),
        DomUKernel(0, PreemptRt), DomURootfs(0, "rootfs.cpio.gz"), DomUNoBoot(0),
        NumDomUs(1)];
    forall p | 0 <= p < |r|
      ensures r[p] == e[p]
    {
      ConfigIsLineAt(Vanilla, a, p);
    }
    assert r == e;
  }

  /** dom0 plus two dom0less VMs and one ramdisk: the dom0less VMs take indices
      0 and 1, the first reads the ramdisk, the second the default, and
      NUM_DOMUS is 2. */
  lemma Dom0lessWithOneRamdisk()
    ensures Plan(Args(Some(Vanilla), [], [Vanilla, PreemptRt], ["a.cpio"], [])) == Done(Generated(
      TemplateLines + [
        Dom0Kernel(Vanilla), Dom0Rootfs("rootfs.cpio.gz"),
        DomUKernel(0, Vanilla), DomURamdisk(0, "a.cpio"),
        DomUKernel(1, PreemptRt), DomURamdisk(1, "initrd.cpio"),
        NumDomUs(2)],
      false))
  {
    var a := Args(Some(Vanilla), [], [Vanilla, PreemptRt], ["a.cpio"], []);
    var r := AssembleConfig(Vanilla, a);
    var e := TemplateLines + [
        Dom0Kernel(Vanilla), Dom0Rootfs("rootfs.cpio.gz"),
        DomUKernel(0, Vanilla), DomURamdisk(0, "a.cpio"),
        DomUKernel(1, PreemptRt), DomURamdisk(1, "initrd.cpio"),
        NumDomUs(2)];
    forall p | 0 <= p < |r|
      ensures r[p] == e[p]
    {
      ConfigIsLineAt(Vanilla, a, p);
    }
    assert r == e;
  }

  /** With `--rootfs`, a domU and a dom0less VM: dom0 takes the first rootfs, the
      domU the second at index 1, the dom0less VM index 2 and the first ramdisk,
      and NUM_DOMUS is 3. */
  lemma RootfsStartsIndicesAtOne()
    ensures Plan(Args(Some(PreemptRt), [Vanilla], [Vanilla], ["a.cpio"], ["r0.gz", "r1.gz"])) == Done(Generated(
      TemplateLines + [
        Dom0Kernel(PreemptRt), Dom0Rootfs("r0.gz"),
        DomUKernel(1, Vanilla), DomURootfs(1, "r1.gz"), DomUNoBoot(1),
        DomUKernel(2, Vanilla), DomURamdisk(2, "a.cpio"),
        NumDomUs(3)],
      false))
  {
    var a := Args(Some(PreemptRt), [Vanilla], [Vanilla], ["a.cpio"], ["r0.gz", "r1.gz"]);
    var r := AssembleConfig(PreemptRt, a);
    var e := TemplateLines + [
        Dom0Kernel(PreemptRt), Dom0Rootfs("r0.gz"),
        DomUKernel(1, Vanilla), DomURootfs(1, "r1.gz"), DomUNoBoot(1),
        DomUKernel(2, Vanilla), DomURamdisk(2, "a.cpio"),
        NumDomUs(3)];
    forall p | 0 <= p < |r|
      ensures r[p] == e[p]
    {
      ConfigIsLineAt(PreemptRt, a, p);
    }
    assert r == e;
  }

  /** `--rootfs` with domUs but no dom0less VM ends in `len(None)`. */
  lemma RootfsWithoutDom0lessCrashes()
    ensures Plan(Args(Some(Vanilla), [Vanilla], [], [], ["r0.gz"])) == Failed(LenOfNone)
  {
  }

  /** Ramdisks with no dom0less VM pass the checks, however many there are. */
  lemma RamdisksWithoutDom0lessPass()
    ensures Plan(Args(Some(Vanilla), [Vanilla], [], ["a.cpio", "b.cpio"], [])).Done?
  {
  }

  /** A domU without dom0 produces nothing and runs no check. */
  lemma DomUWithoutDom0DoesNothing()
    ensures Plan(Args(None, [Vanilla], [], ["a.cpio", "b.cpio"], ["r0.gz", "r1.gz", "r2.gz"])) == NoDom0
  {
  }

  /** The template lines carry the seven keys and values of `TEMPLATE_CONFIG`, in file order. */
  lemma TemplateConfigLines()
    ensures Key(TemplateLines[0]) == "MEMORY_START" && Value(TemplateLines[0]) == "0x0"
    ensures Key(TemplateLines[1]) == "MEMORY_END" && Value(TemplateLines[1]) == "0x80000000"
    ensures Key(TemplateLines[2]) == "DEVICE_TREE" && Value(TemplateLines[2]) == "system.dtb"
    ensures Key(TemplateLines[3]) == "BOOTBIN" && Value(TemplateLines[3]) == "BOOT.BIN"
    ensures Key(TemplateLines[4]) == "XEN" && Value(TemplateLines[4]) == "xen"
    ensures Key(TemplateLines[5]) == "UBOOT_SOURCE" && Value(TemplateLines[5]) == "boot.source"
    ensures Key(TemplateLines[6]) == "UBOOT_SCRIPT" && Value(TemplateLines[6]) == "boot.scr"
  {
  }
}

=== FILE: staging.dfy ===
/** What a run does with a generated configuration: the files it copies into
    the build directory, the existence assertions it makes on the firmware
    directory, and the partitions it patches for Xen after the image is built. */
module Staging {
  import opened XenConfig
  import opened Arguments
  import opened Planner

  /** One `cp` from the firmware directory into the build directory, both
      paths relative to their directory. */
  datatype Copy = Copy(source: string, target: string)

  /** The result of a run that reached the end. */
  datatype Build = Build(config: seq<Line>, advisory: bool, copies: seq<Copy>, partitions: seq<nat>)

  function KernelCopy(v: Variant): Copy
  {
    Copy("kernel/" + KernelFile(v), KernelFile(v))
  }

  function KernelCopies(vs: seq<Variant>): seq<Copy>
  {
    seq(|vs|, i requires 0 <= i < |vs| => KernelCopy(vs[i]))
  }

  /** Copies that keep the file name, as for the defaults and every override. */
  function SameNameCopies(paths: seq<string>): seq<Copy>
  {
    seq(|paths|, i requires 0 <= i < |paths| => Copy(paths[i], paths[i]))
  }

  /** The artifacts copied on every run once the configuration is built. */
  const CommonCopies: seq<Copy> := [
    Copy("bootbin/BOOT.BIN.xen", "BOOT.BIN"),
    Copy("xen", "xen"),
    Copy("device_tree/system.dtb.xen", "system.dtb"),
    Copy(DefaultRamdisk, DefaultRamdisk),
    Copy(DefaultRootfs, DefaultRootfs)
  ]

  /** The two boot artifacts the firmware directory keeps under Xen-specific names. */
  const RenamedArtifacts: seq<Copy> := [CommonCopies[0], CommonCopies[2]]

  /** Every copy of a run, in order: dom0's kernel, the default rootfs when no
      `--rootfs` was given, one kernel per domU and per dom0less VM, the common
      artifacts, then every ramdisk and every rootfs override. */
  function StagingCopies(dom0: Variant, a: Args): (r: seq<Copy>)
    ensures |r| == |a.domU| + |a.dom0less| + |a.ramdisk| + |a.rootfs| + (if |a.rootfs| == 0 then 7 else 6)
    ensures r[0] == KernelCopy(dom0)
  {
    [KernelCopy(dom0)]
    + (if |a.rootfs| == 0 then [Copy(DefaultRootfs, DefaultRootfs)] else [])
    + KernelCopies(a.domU) + KernelCopies(a.dom0less)
    + CommonCopies + SameNameCopies(a.ramdisk) + SameNameCopies(a.rootfs)
  }

  /** Where each copy sits in `StagingCopies`: after dom0's kernel and the
      default rootfs (`d` counts both), the domU kernels, the dom0less kernels,
      the common artifacts, the ramdisks, then the rootfs overrides. */
  lemma StagingCopiesOrder(dom0: Variant, a: Args)
    ensures var r, d := StagingCopies(dom0, a), if |a.rootfs| == 0 then 2 else 1;
      && (|a.rootfs| == 0 ==> r[1] == Copy(DefaultRootfs, DefaultRootfs))
      && (forall i :: 0 <= i < |a.domU| ==> r[d + i] == KernelCopy(a.domU[i]))
      && (forall j :: 0 <= j < |a.dom0less| ==> r[d + |a.domU| + j] == KernelCopy(a.dom0less[j]))
      && r[d + |a.domU| + |a.dom0less|..d + |a.domU| + |a.dom0less| + 5] == CommonCopies
      && (forall i :: 0 <= i < |a.ramdisk| ==>
            r[d + |a.domU| + |a.dom0less| + 5 + i] == Copy(a.ramdisk[i], a.ramdisk[i]))
      && (forall i :: 0 <= i < |a.rootfs| ==>
            r[d + |a.domU| + |a.dom0less| + 5 + |a.ramdisk| + i] == Copy(a.rootfs[i], a.rootfs[i]))
  {
    var front := [KernelCopy(dom0)] + (if |a.rootfs| == 0 then [Copy(DefaultRootfs, DefaultRootfs)] else []);
    var ku, kl := KernelCopies(a.domU), KernelCopies(a.dom0less);
    var sr, sf := SameNameCopies(a.ramdisk), SameNameCopies(a.rootfs);
    assert StagingCopies(dom0, a) == front + ku + kl + CommonCopies + sr + sf;
  }

  /** The kernel files of the VMs that boot: dom0's, every domU's and every dom0less VM's. */
  function BootedKernelFiles(dom0: Variant, a: Args): set<string>
  {
    {KernelFile(dom0)} + (set v | v in a.domU + a.dom0less :: KernelFile(v))
  }

  /** The file names given by `--ramdisk` and `--rootfs`. */
  function OverrideFiles(a: Args): set<string>
  {
    set path | path in a.ramdisk + a.rootfs
  }

  /** The files every run stages whatever its arguments. */
  const CommonTargets: set<string> := {"BOOT.BIN", "xen", "system.dtb", DefaultRamdisk, DefaultRootfs}

  /** A copy a run may issue: a booted kernel out of the kernel directory, one
      of the two renamed boot artifacts, or Xen, a default or an override
      copied under its own name. */
  predicate Sanctioned(dom0: Variant, a: Args, c: Copy)
  {
    || (c.source == "kernel/" + c.target && c.target in BootedKernelFiles(dom0, a))
    || c in RenamedArtifacts
    || (c.source == c.target && c.target in {"xen", DefaultRamdisk, DefaultRootfs} + OverrideFiles(a))
  }

  /** Nothing is copied but booted kernels, the boot artifacts, the defaults
      and the overrides. */
  lemma CopySources(dom0: Variant, a: Args)
    ensures forall c :: c in StagingCopies(dom0, a) ==> Sanctioned(dom0, a, c)
  {
    var front := [KernelCopy(dom0)] + (if |a.rootfs| == 0 then [Copy(DefaultRootfs, DefaultRootfs)] else []);
    var ku, kl := KernelCopies(a.domU), KernelCopies(a.dom0less);
    var sr, sf := SameNameCopies(a.ramdisk), SameNameCopies(a.rootfs);
    assert StagingCopies(dom0, a) == front + ku + kl + CommonCopies + sr + sf;
    KernelCopiesFrom(a.domU);
    KernelCopiesFrom(a.dom0less);
    KeepsNames(a.ramdisk);
    KeepsNames(a.rootfs);
    forall c | c in StagingCopies(dom0, a)
      ensures Sanctioned(dom0, a, c)
    {
      if c in ku || c in kl {
        var v :| (v in a.domU || v in a.dom0less) && c == KernelCopy(v);
        assert v in a.domU + a.dom0less;
      } else if c in sr || c in sf {
        assert c.target in a.ramdisk + a.rootfs;
      }
    }
  }

  lemma KernelCopiesFrom(vs: seq<Variant>)
    ensures forall c :: c in KernelCopies(vs) ==> exists v :: v in vs && c == KernelCopy(v)
  {
    forall c | c in KernelCopies(vs)
      ensures exists v :: v in vs && c == KernelCopy(v)
    {
      var i :| 0 <= i < |vs| && KernelCopies(vs)[i] == c;
      assert vs[i] in vs;
    }
  }

  function Targets(copies: seq<Copy>): set<string>
  {
    set c | c in copies :: c.target
  }

  /** The build-directory file a line points ImageBuilder at, if any. The boot
      script names are outputs of ImageBuilder, not inputs. */
  function NamedInput(l: Line): Option<string>
  {
    match l
    case Template(DeviceTree) => Some(TemplateValue(DeviceTree))
    case Template(BootBin) => Some(TemplateValue(BootBin))
    case Template(XenImage) => Some(TemplateValue(XenImage))
    case Template(_) => None
    case Dom0Kernel(v) => Some(KernelFile(v))
    case DomUKernel(_, v) => Some(KernelFile(v))
    case Dom0Rootfs(p) => Some(p)
    case DomURootfs(_, p) => Some(p)
    case DomURamdisk(_, p) => Some(p)
    case _ => None
  }

  /** A kernel is copied exactly when some VM boots it. */
  lemma KernelStagedIffBooted(dom0: Variant, a: Args, v: Variant)
    ensures KernelCopy(v) in StagingCopies(dom0, a) <==> v == dom0 || v in a.domU || v in a.dom0less
  {
    var copies := StagingCopies(dom0, a);
    if v in a.domU {
      var i :| 0 <= i < |a.domU| && a.domU[i] == v;
      assert KernelCopies(a.domU)[i] == KernelCopy(v);
    }
    if v in a.dom0less {
      var i :| 0 <= i < |a.dom0less| && a.dom0less[i] == v;
      assert KernelCopies(a.dom0less)[i] == KernelCopy(v);
    }
    if KernelCopy(v) in copies && v != dom0 {
      CopySources(dom0, a);
      assert Sanctioned(dom0, a, KernelCopy(v));
      assert |"kernel/" + KernelFile(v)| != |KernelFile(v)|;
      assert KernelFile(v) != "BOOT.BIN" && KernelFile(v) != "system.dtb";
      var w :| w in a.domU + a.dom0less && KernelFile(w) == KernelFile(v);
      assert w == v;
    }
  }

  /** What lands in the build directory: the boot artifacts, both defaults,
      dom0's kernel, every requested kernel and every override. */
  lemma StagedTargets(dom0: Variant, a: Args)
    ensures var t := Targets(StagingCopies(dom0, a));
      && "BOOT.BIN" in t && "xen" in t && "system.dtb" in t
      && DefaultRootfs in t && DefaultRamdisk in t && KernelFile(dom0) in t
      && (forall v :: v in a.domU ==> KernelFile(v) in t)
      && (forall v :: v in a.dom0less ==> KernelFile(v) in t)
      && (forall path :: path in a.rootfs ==> path in t)
      && (forall path :: path in a.ramdisk ==> path in t)
  {
    var copies := StagingCopies(dom0, a);
    forall c | c in CommonCopies
      ensures c in copies
    {
    }
    assert CommonCopies[0] == Copy("bootbin/BOOT.BIN.xen", "BOOT.BIN");
    assert CommonCopies[1] == Copy("xen", "xen");
    assert CommonCopies[2] == Copy("device_tree/system.dtb.xen", "system.dtb");
    assert CommonCopies[3] == Copy(DefaultRamdisk, DefaultRamdisk);
    assert CommonCopies[4] == Copy(DefaultRootfs, DefaultRootfs);
    assert copies[0] == KernelCopy(dom0);
    forall v | v in a.domU
      ensures KernelFile(v) in Targets(copies)
    {
      KernelStagedIffBooted(dom0, a, v);
    }
    forall v | v in a.dom0less
      ensures KernelFile(v) in Targets(copies)
    {
      KernelStagedIffBooted(dom0, a, v);
    }
    forall path | path in a.rootfs
      ensures path in Targets(copies)
    {
      StagedOverride(a.rootfs, path);
    }
    forall path | path in a.ramdisk
      ensures path in Targets(copies)
    {
      StagedOverride(a.ramdisk, path);
    }
  }

  /** Every file the configuration names is among the copied files. */
  lemma ConfigNamesOnlyStagedFiles(dom0: Variant, a: Args, p: nat)
    requires p < |AssembleConfig(dom0, a)|
    ensures var named := NamedInput(AssembleConfig(dom0, a)[p]);
      named.Some? ==> named.value in Targets(StagingCopies(dom0, a))
  {
    StagedTargets(dom0, a);
    OverridesStayInTheirSlots(dom0, a, p);
    KernelLinesBootRequestedVariants(dom0, a, p);
  }

  lemma KeepsNames(paths: seq<string>)
    ensures forall c :: c in SameNameCopies(paths) ==> c.source == c.target && c.target in paths
  {
    forall c | c in SameNameCopies(paths)
      ensures c.source == c.target && c.target in paths
    {
      var i :| 0 <= i < |paths| && SameNameCopies(paths)[i] == c;
    }
  }

  /** The build directory receives exactly the common artifacts, the kernels
      of the VMs that boot, and the overrides. */
  lemma StagedTargetsExactly(dom0: Variant, a: Args)
    ensures Targets(StagingCopies(dom0, a)) == CommonTargets + BootedKernelFiles(dom0, a) + OverrideFiles(a)
  {
    var t := Targets(StagingCopies(dom0, a));
    var expected := CommonTargets + BootedKernelFiles(dom0, a) + OverrideFiles(a);
    StagedTargets(dom0, a);
    CopySources(dom0, a);
    forall x | x in t
      ensures x in expected
    {
      var c :| c in StagingCopies(dom0, a) && c.target == x;
      assert Sanctioned(dom0, a, c);
    }
    forall x | x in expected
      ensures x in t
    {
      if x in BootedKernelFiles(dom0, a) && x != KernelFile(dom0) {
        var v :| v in a.domU + a.dom0less && KernelFile(v) == x;
        assert v in a.domU || v in a.dom0less;
      } else if x in OverrideFiles(a) {
        assert x in a.ramdisk || x in a.rootfs;
      }
    }
  }

  /** Every override is copied under its own name. */
  lemma StagedOverride(paths: seq<string>, path: string)
    requires path in paths
    ensures Copy(path, path) in SameNameCopies(paths)
  {
    var i :| 0 <= i < |paths| && paths[i] == path;
    assert SameNameCopies(paths)[i] == Copy(path, path);
  }

  /** The paths the run asserts to exist in the firmware directory, in the
      order it asserts them: the default rootfs when no `--rootfs` was given,
      then every ramdisk, then every rootfs override. */
  function CheckedPaths(a: Args): (r: seq<string>)
    ensures forall path :: path in r <==>
      path in a.ramdisk || path in a.rootfs || (|a.rootfs| == 0 && path == DefaultRootfs)
    ensures var d := if |a.rootfs| == 0 then 1 else 0;
      && |r| == d + |a.ramdisk| + |a.rootfs|
      && (d == 1 ==> r[0] == DefaultRootfs)
      && (forall i :: 0 <= i < |a.ramdisk| ==> r[d + i] == a.ramdisk[i])
      && (forall i :: 0 <= i < |a.rootfs| ==> r[d + |a.ramdisk| + i] == a.rootfs[i])
  {
    (if |a.rootfs| == 0 then [DefaultRootfs] else []) + a.ramdisk + a.rootfs
  }

  /** Position of the first path missing from `firmware`, the one whose
      assertion fails. */
  function FirstMissing(paths: seq<string>, firmware: set<string>): (r: Option<nat>)
    ensures r.None? <==> forall i :: 0 <= i < |paths| ==> paths[i] in firmware
    ensures r.Some? ==> r.value < |paths| && paths[r.value] !in firmware
    ensures r.Some? ==> forall i :: 0 <= i < r.value ==> paths[i] in firmware
  {
    if |paths| == 0 then None
    else if paths[0] !in firmware then Some(0)
    else match FirstMissing(paths[1..], firmware)
      case None => None
      case Some(i) => Some(i + 1)
  }

  /** The partitions patched after the image is built: partition 2, dom0's
      root filesystem, then one per domU from partition 3 on. Dom0less VMs
      boot from a ramdisk and get none. */
  method FixupPartitions(a: Args) returns (parts: seq<nat>)
    ensures |parts| == |a.domU| + 1
    ensures forall k :: 0 <= k < |parts| ==> parts[k] == k + 2
    ensures forall k, m :: 0 <= k < m < |parts| ==> parts[k] < parts[m]
    ensures forall n :: n in parts <==> 2 <= n <= |a.domU| + 2
  {
    parts := [2];
    var i := 0;
    while i < |a.domU|
      invariant 0 <= i <= |a.domU|
      invariant |parts| == i + 1
      invariant forall k :: 0 <= k < |parts| ==> parts[k] == k + 2
    {
      parts := parts + [i + 2 + 1];
      i := i + 1;
    }
    forall n | 2 <= n <= |a.domU| + 2
      ensures n in parts
    {
      assert parts[n - 2] == n;
    }
  }

  /** A whole run: the planning step, then, when a configuration was produced,
      the existence assertions on the firmware directory, the copies and the
      partitions to patch. */
  method Run(a: Args, firmware: set<string>) returns (r: Outcome<Build>)
    ensures r.NothingRequested? <==> Plan(a).NothingRequested?
    ensures r.NoDom0? <==> Plan(a).NoDom0?
    ensures Plan(a).Failed? ==> r == Failed(Plan(a).failure)
    ensures Plan(a).Done? ==> (r.Done? <==> forall i :: 0 <= i < |CheckedPaths(a)| ==> CheckedPaths(a)[i] in firmware)
    ensures Plan(a).Done? && !r.Done? ==>
      r.Failed? && r.failure.MissingArtifact? && r.failure.path in CheckedPaths(a) && r.failure.path !in firmware
    ensures Plan(a).Done? && !r.Done? ==>
      FirstMissing(CheckedPaths(a), firmware).Some?
      && r == Failed(MissingArtifact(CheckedPaths(a)[FirstMissing(CheckedPaths(a), firmware).value]))
    ensures r.Done? ==> Plan(a).Done?
    ensures r.Done? ==> r.value.config == Plan(a).value.config && r.value.advisory == Plan(a).value.advisory
    ensures r.Done? ==> a.dom0.Some? && r.value.copies == StagingCopies(a.dom0.value, a)
    ensures r.Done? ==> forall p :: 0 <= p < |r.value.config| && NamedInput(r.value.config[p]).Some? ==>
      NamedInput(r.value.config[p]).value in Targets(r.value.copies)
    ensures r.Done? ==> |r.value.partitions| == |a.domU| + 1
    ensures r.Done? ==> forall k :: 0 <= k < |r.value.partitions| ==> r.value.partitions[k] == k + 2
  {
    match Plan(a)
    case NothingRequested => r := NothingRequested;
    case NoDom0 => r := NoDom0;
    case Failed(f) => r := Failed(f);
    case Done(generated) =>
      var checked := CheckedPaths(a);
      match FirstMissing(checked, firmware)
      case Some(i) =>
        r := Failed(MissingArtifact(checked[i]));
      case None =>
        var dom0 := a.dom0.value;
        var copies := StagingCopies(dom0, a);
        var parts := FixupPartitions(a);
        forall p | 0 <= p < |generated.config| && NamedInput(generated.config[p]).Some?
          ensures NamedInput(generated.config[p]).value in Targets(copies)
        {
          ConfigNamesOnlyStagedFiles(dom0, a, p);
        }
        r := Done(Build(generated.config, generated.advisory, copies, parts));
  }
}

=== FILE: xen_config.dfy ===
/** The vocabulary of the `xen.cfg` file that the hypervisor subverb writes for
    ImageBuilder: kernel variants, the configuration lines it can emit, and the
    exact text of each line. */
module XenConfig {

  datatype Option<+T> = None | Some(value: T)

  /** The two kernel flavours accepted by `--dom0`, `--domU` and `--dom0less`. */
  datatype Variant = Vanilla | PreemptRt

  /** The kernel image a variant boots, named as in the firmware's kernel
      directory: plain `Image` for the vanilla kernel only, so the two variants
      never share a file. */
  function KernelFile(v: Variant): (r: string)
    ensures r == "Image" <==> v == Vanilla
  {
    match v
    case Vanilla => "Image"
    case PreemptRt => "Image_PREEMPT_RT"
  }

  /** Used for dom0 and every domU whose `--rootfs` slot is not filled. */
  const DefaultRootfs: string := "rootfs.cpio.gz"

  /** Used for every dom0less VM whose `--ramdisk` slot is not filled. */
  const DefaultRamdisk: string := "initrd.cpio"

  /** The seven settings of the fixed template every configuration starts from. */
  datatype TemplateKey =
    | MemoryStart | MemoryEnd | DeviceTree | BootBin | XenImage | UbootSource | UbootScript

  /** A template key is a plain name: no `=`, array bracket or newline. */
  function TemplateName(k: TemplateKey): (r: string)
    ensures |r| > 0 && '=' !in r && '[' !in r && '\n' !in r
  {
    match k
    case MemoryStart => "MEMORY_START"
    case MemoryEnd => "MEMORY_END"
    case DeviceTree => "DEVICE_TREE"
    case BootBin => "BOOTBIN"
    case XenImage => "XEN"
    case UbootSource => "UBOOT_SOURCE"
    case UbootScript => "UBOOT_SCRIPT"
  }

  /** A template value is unquoted and fits on its line. */
  function TemplateValue(k: TemplateKey): (r: string)
    ensures |r| > 0 && '"' !in r && '\n' !in r
  {
    match k
    case MemoryStart => "0x0"
    case MemoryEnd => "0x80000000"
    case DeviceTree => "system.dtb"
    case BootBin => "BOOT.BIN"
    case XenImage => "xen"
    case UbootSource => "boot.source"
    case UbootScript => "boot.scr"
  }

  /** One line of `xen.cfg`. The `DOMU_*` lines are array entries keyed by an index. */
  datatype Line =
    | Template(key: TemplateKey)
    | Dom0Kernel(variant: Variant)
    | Dom0Rootfs(path: string)
    | DomUKernel(index: nat, variant: Variant)
    | DomURootfs(index: nat, path: string)
    | DomUNoBoot(index: nat)
    | DomURamdisk(index: nat, path: string)
    | NumDomUs(count: nat)
  {
    /** True for the `DOMU_*[index]` array entries. */
    predicate Indexed()
    {
      DomUKernel? || DomURootfs? || DomUNoBoot? || DomURamdisk?
    }

    /** True for the lines that name a root filesystem (dom0's or a domU's). */
    predicate NamesRootfs()
    {
      Dom0Rootfs? || DomURootfs?
    }
  }

  /** The template the configuration always starts from, in file order. */
  const TemplateLines: seq<Line> := [
    Template(MemoryStart), Template(MemoryEnd), Template(DeviceTree), Template(BootBin),
    Template(XenImage), Template(UbootSource), Template(UbootScript)
  ]

  predicate IsDigit(c: char)
  {
    '0' <= c <= '9'
  }

  predicate AllDigits(s: string)
  {
    forall i :: 0 <= i < |s| ==> IsDigit(s[i])
  }

  function DigitChar(d: nat): (c: char)
    requires d < 10
    ensures IsDigit(c) && c as int - '0' as int == d
  {
    ('0' as int + d) as char
  }

  /** Decimal text of a count, as Python's `str` prints a non-negative int:
      canonical, so it starts with `0` only when it is `0`. */
  function NatToString(n: nat): (s: string)
    ensures |s| > 0 && AllDigits(s)
    ensures s[0] == '0' <==> n == 0
    ensures s == "0" || s[0] != '0'
    decreases n
  {
    if n < 10 then [DigitChar(n)] else NatToString(n / 10) + [DigitChar(n % 10)]
  }

  /** `NAME[i]`; free of `=` and newlines when the name is. */
  function ArrayKey(name: string, i: nat): (r: string)
    ensures '=' !in name && '\n' !in name ==> '=' !in r && '\n' !in r
  {
    DigitsArePlain(NatToString(i));
    name + "[" + NatToString(i) + "]"
  }

  lemma DigitsArePlain(s: string)
    requires AllDigits(s)
    ensures '=' !in s && '\n' !in s
  {
    forall i | 0 <= i < |s|
      ensures s[i] != '=' && s[i] != '\n'
    {
      assert IsDigit(s[i]);
    }
  }

  function Quote(s: string): string
  {
    "\"" + s + "\""
  }

  /** A line whose file name, if it carries one, has no newline: its text
      stays on one line of the file. */
  predicate LineSafe(l: Line)
  {
    match l
    case Dom0Rootfs(p) => '\n' !in p
    case DomURootfs(_, p) => '\n' !in p
    case DomURamdisk(_, p) => '\n' !in p
    case _ => true
  }

  /** The text left of the `=` of a rendered line. It never holds an `=` or a
      newline, so the first `=` of a line ends its key. */
  function Key(l: Line): (r: string)
    ensures |r| > 0 && '=' !in r && '\n' !in r
  {
    match l
    case Template(k) => TemplateName(k)
    case Dom0Kernel(_) => "DOM0_KERNEL"
    case Dom0Rootfs(_) => "DOM0_ROOTFS"
    case DomUKernel(i, _) => ArrayKey("DOMU_KERNEL", i)
    case DomURootfs(i, _) => ArrayKey("DOMU_ROOTFS", i)
    case DomUNoBoot(i) => ArrayKey("DOMU_NOBOOT", i)
    case DomURamdisk(i, _) => ArrayKey("DOMU_RAMDISK", i)
    case NumDomUs(_) => "NUM_DOMUS"
  }

  /** The text right of the `=` of a rendered line; the `DOMU_*` file names are quoted. */
  function Value(l: Line): (r: string)
    ensures l.DomUKernel? || l.DomURootfs? || l.DomURamdisk? ==>
      |r| >= 2 && r[0] == '"' && r[|r| - 1] == '"'
    ensures LineSafe(l) ==> '\n' !in r
  {
    match l
    case Template(k) => TemplateValue(k)
    case Dom0Kernel(v) => KernelFile(v)
    case Dom0Rootfs(p) => p
    case DomUKernel(_, v) => Quote(KernelFile(v))
    case DomURootfs(_, p) => Quote(p)
    case DomUNoBoot(_) => "y"
    case DomURamdisk(_, p) => Quote(p)
    case NumDomUs(n) => NatToString(n)
  }

  /** `KEY=value`; the text of a safe line holds no newline. */
  function RenderLine(l: Line): (r: string)
    ensures '=' in r
    ensures LineSafe(l) ==> '\n' !in r
  {
    Key(l) + "=" + Value(l)
  }

  /** The file text: every line followed by a newline, in order. */
  function RenderConfig(ls: seq<Line>): (r: string)
    ensures |ls| == 0 <==> r == ""
    ensures |ls| > 0 ==> r[|r| - 1] == '\n'
  {
    if |ls| == 0 then "" else RenderLine(ls[0]) + "\n" + RenderConfig(ls[1..])
  }

  /** Rendering distributes over concatenation: the file is its lines' texts in order. */
  lemma {:induction false} RenderConfigAppend(xs: seq<Line>, ys: seq<Line>)
    ensures RenderConfig(xs + ys) == RenderConfig(xs) + RenderConfig(ys)
  {
    if |xs| > 0 {
      assert (xs + ys)[1..] == xs[1..] + ys;
      RenderConfigAppend(xs[1..], ys);
    } else {
      assert xs + ys == ys;
    }
  }
}
